=== FILE: README.md ===
# Snake game with an A* autopilot — a Dafny model

This project models the game logic of `static/game.js`, a browser snake game.
The model covers:
- the snake's state machine: heading, steps and collisions;
- the A* search the autopilot uses to reach the food;
- the autopilot's step;
- food and obstacle placement, including the random layout and the recursively carved maze;
- the game session: construction, reset, start, the per-frame tick, eating, and the state changes made by the buttons and keys.

Drawing and the DOM are left out.

The model works in cell coordinates. The game stores pixel positions that are always multiples of the 20-pixel block (`Grid.BlockSize`). A cell `c` stands for the pixel `(20·c.x, 20·c.y)`. The scale is written out only where the game compares with pixel quantities:
- the wall test against the canvas size;
- the "more than one block from the head" test of obstacle placement;
- the maze's clear area.

`Math.random` becomes an infinite stream `Rand = nat -> real` of values in [0, 1), together with the index of the next unread value. Every drawing operation takes that index and returns the advanced one. The loops that retry until a draw succeeds (`Food.randomize`) need the stream to produce a usable cell eventually. `Oracle.Fair` states that, and the game-level operations require it.

The modules follow the program's classes:
- `Grid`, `Oracle` and `Optional` are shared vocabulary.
- `Snakes` is the `Snake` class minus the search.
- `AStar` is `findPathToFood`.
- `Autopilot` is `autoMove`.
- `Food`, `Obstacles` and `Maze` cover placement.
- `Games` is the `Game` class.

Main results:
- **Pathfinding is sound and complete.** The search is proved to terminate, without fuel. Termination uses a lexicographic measure: first the cells not yet closed, then the open nodes that stand on closed cells. The open list may hold several nodes for one cell. A returned path is a walk from the head to the food through free cells in unit steps. `None` is returned only when no such walk exists.
- **Each step of the snake is characterised exactly.** A step fails if and only if the new head is off the canvas, on a body cell other than the head, or on an obstacle. A successful step puts the new head in front and keeps `|positions| <= length`.
- **A tick preserves the session invariant.** The invariant: one point per food eaten, and food on the canvas and off the snake.
- **The maze is exactly the uncarved cells minus the clear area.** Carving provably ends, because each call opens a cell that was a wall. Only interior cells and the start cell are opened, so the rest of the border stays wall.

Some behaviours of the code are easy to miss. The model follows the code:
- **The autopilot can leave its path.** A one-cell snake may be asked to reverse. `setDirection` refuses, yet the waypoint is still dropped (`Autopilot.ReversalLeavesPath`). The cache then no longer starts at the head. A cache with one cell left is neither refreshed nor followed, so the snake keeps its heading until it eats or dies (`Autopilot.ShortCacheKeepsHeading`).
- **The autopilot searches again only when the cache is missing or empty.** It does not search again when the cache has length 1.
- **Headings are arbitrary integer vectors.** Once the cache no longer starts at the head, `autoMove` can request a non-unit heading such as (-3, 0).
- **`generateRandom` goes through `addSingleRandom`.** So the random layout can have fewer than sixty obstacles, and none is a duplicate.
- **Space does not restart a finished game.** `reset` clears `gameStarted`, so ticks stay off until a mode is chosen again through the mode button. The click listener that starts a game is removed after each choice.
- **`startGame` places the food before it builds the new layout.** In maze mode the food can therefore lie on a wall. Only the random layout is guaranteed to avoid it.
- **The maze grid and the wall test use different extents.** The maze grid is `floor(width/20)` by `floor(height/20)`. The wall test uses the full canvas. The clear area is five pixel points around `(floor(width/2), floor(height/2))`, and it removes cells only when those points are multiples of 20.

## Model

| member | source | states |
|---|---|---|
| Oracle.Scale | static/game.js:252 | `Math.floor(Math.random() * n)` lies in `[0, n)` |
| Oracle.DrawCell | static/game.js:316-319 | a random cell drawn as in `addSingleRandom` and `randomize` always lies on the canvas |
| Snakes.Reset | static/game.js:26-34 | a fresh snake is one cell at the centre cell `(W/40, H/40)`, length 1, heading right, empty path, and satisfies the snake invariant |
| Snakes.SetDirection | static/game.js:36-41 | the heading changes to the request unless the request is the exact reverse, and the heading stays the same exactly when the request is the reverse or equals the heading; nothing else changes |
| Snakes.NoInstantReversal | static/game.js:36-41 | for a nonzero heading, no request can turn the snake onto its exact reverse |
| Snakes.CheckCollision | static/game.js:64-82 | reports a hit exactly when the cell is off the canvas, on a body cell at index 1 or later, or on an obstacle |
| Snakes.Update | static/game.js:43-62 | the step fails exactly on a collision and then changes nothing; otherwise the new head is old head plus heading, followed by the old body, growing by one while below `length` and otherwise dropping the tail |
| Snakes.UpdateKeepsInv | static/game.js:43-62 | a step keeps the head on the canvas and the body within `1..length` cells |
| Snakes.UpdateKeepsDistinct | static/game.js:43-62 | with a nonzero heading, a step never makes two segments share a cell |
| AStar.FirstOpen | static/game.js:147-149 | finds an open node on the cell exactly when one exists, and it is the first node of the open list standing on that cell |
| AStar.SelectMin | static/game.js:107-110 | the chosen open node has minimal `f`, and every earlier node has strictly larger `f` (earliest wins ties) |
| AStar.Expand | static/game.js:126-154 | the open list only grows at its end; each pushed node is a free, unclosed neighbour of the current node with `g = parent.g + 1`, squared-distance `h` and `f = g + h`; a free, unclosed neighbour is pushed exactly when no open node on its cell is at least as cheap, and at most once; children are pushed in the order up, right, down, left, which decides ties in the minimum search; afterwards every free neighbour is closed or open |
| AStar.TraceIsWalk | static/game.js:113-124 | following parent links back from any closed node gives a walk from the start through free cells in unit steps |
| AStar.Reverse | static/game.js:123 | the reversed sequence holds the same elements in the opposite order |
| AStar.Reconstruct | static/game.js:114-123 | the loop that collects cells along parent links and then reverses them yields exactly the start-to-node trace |
| AStar.WalkStaysInside | static/game.js:155-156 | a walk that starts in a set closed under free unit steps never leaves it, which is why an exhausted search means no walk exists |
| AStar.FindPathToFood | static/game.js:91-157 | always terminates; a returned path starts at the head, ends at the food, moves one cell along one axis per step and has every cell after the first free; `null` only when no such walk exists |
| Autopilot.AutoMove | static/game.js:159-177 | never touches the body or length; searches only when the cache is null or empty and fails exactly when that search finds no walk, leaving the cache null; otherwise turns toward the path's second cell (through the reversal guard) and drops the first cell, or leaves everything but the cache unchanged for a path of at most one cell |
| Autopilot.FollowedStep | static/game.js:165-175 | after following a path, the next head is the path's second cell unless that cell is straight behind, in which case the snake keeps going |
| Autopilot.ReversalLeavesPath | static/game.js:165-175 | a refused reversal still drops the first waypoint, so the cache no longer starts where the snake goes |
| Autopilot.ShortCacheKeepsHeading | static/game.js:160-176 | a one-cell cache is neither refreshed nor followed: the snake is unchanged |
| Food.Randomize | static/game.js:188-202 | the food goes to the first drawn cell that is on no snake segment and no obstacle, and it lies on the canvas |
| Food.FairFindsFood | static/game.js:188-202 | with a fair stream and one free cell, the retry loop reaches a free draw |
| Obstacles.AddSingleFrom | static/game.js:315-333 | the remaining attempts append the first placeable draw or nothing; when nothing is appended, every draw was unplaceable and two values were read per attempt |
| Obstacles.AddSingleRandom | static/game.js:314-334 | appends at most one obstacle and keeps the old ones; a new one is on the canvas, more than one block from the head, and not an obstacle, snake cell or the food; when none is added, all ten draws were unplaceable |
| Obstacles.AddMany | static/game.js:309-311 | repeated placement keeps the old obstacles as a prefix and adds at most one per call, each placeable when added; fewer than one per call are added only when some call found none of its ten draws placeable |
| Obstacles.PlacedAreDistinct | static/game.js:327-330 | obstacles that were each placeable when added never repeat |
| Obstacles.AddCount | static/game.js:308 | `addRandom` tries between 10 and 20 placements |
| Obstacles.AddRandom | static/game.js:307-312 | adds 0 to 20 obstacles after the old ones, none on the snake or food, and keeps the layout free of duplicates; fewer than the drawn count (10 to 20) are added only when some attempt found none of its ten draws placeable |
| Obstacles.GenerateRandom | static/game.js:229-234 | the random layout has at most sixty distinct cells, all on the canvas, away from the head, the snake and the food; it has fewer than sixty only when some attempt found none of its ten draws placeable |
| Obstacles.Initialize | static/game.js:220-227 | a fresh layout without duplicates; the maze layout in maze mode; in random mode no obstacle on the snake or the food |
| Maze.Swap | static/game.js:253 | slots `i` and `j` trade places and every other slot keeps its element, so the result is a permutation |
| Maze.ShuffleFrom | static/game.js:251-254 | the Fisher–Yates passes permute the sequence and read one value each |
| Maze.Shuffle | static/game.js:250-254 | the shuffled strides are a permutation of the four strides, after three draws |
| Maze.HalfwayInterior | static/game.js:261-265 | the cell between a carving cell and an interior target is interior |
| Maze.Carve | static/game.js:242-269 | carving is called only on a wall cell and ends; it opens that cell and never closes one, and everything it opens is interior or the start cell |
| Maze.CarveDirs | static/game.js:257-268 | trying the shuffled strides never closes a cell and opens only interior cells |
| Maze.Passages | static/game.js:271-274 | carving from the centre opens the start cell and otherwise only interior cells |
| Maze.RowWalls | static/game.js:279-286 | a row's walls are exactly its uncarved cells, each once |
| Maze.WallList | static/game.js:276-287 | the wall list holds exactly the uncarved grid cells, each once |
| Maze.WithoutClearArea | static/game.js:300-304 | filtering removes exactly the clear-area cells and keeps the rest without duplicates |
| Maze.SpawnIsStart | static/game.js:272-274 | carving starts on the snake's spawn cell: `floor(floor(W/20)/2) = floor(W/40)` in each axis |
| Maze.GenerateMaze | static/game.js:236-305 | the obstacles are exactly the uncarved grid cells outside the clear area, each once; the border apart from the start cell and the clear area is wall; the spawn cell is never a wall |
| Games.Init | static/game.js:349-373 | a new game has no obstacles, the fresh snake `Snakes.Reset`, food off the snake, score 0, frame count 0, autopilot on, not started |
| Games.Reset | static/game.js:454-461 | reset gives a fresh snake, score 0, not over and not started, with food off the snake and off the current obstacles; the obstacles and control mode are kept |
| Games.StartGame | static/game.js:447-452 | a started game has a fresh snake and the layout `initialize` builds for the chosen mode (no duplicates, spawn cell clear); the food is off the previous layout, and only in random mode is it guaranteed off the new one, with every obstacle more than one cell from the spawn; control mode and frame count are kept |
| Games.CheckCollision | static/game.js:463-473 | on eating, the length and score each rise by one, the path is emptied and the food moves to a cell off the snake and obstacles; otherwise nothing changes |
| Games.Update | static/game.js:475-513 | keeps the session invariant; nothing happens before the start; only every tenth frame acts, and never after the game ends; a tick ends the game exactly when the autopilot had to search and found no walk, or the next head is blocked, leaving the body unmoved; otherwise the body is the snake step taken with the chosen heading, and the score rose exactly when the head reached the food; in manual mode the heading is unchanged, and in auto mode it is the one following the cached or found path gives; a started frame always advances the frame counter; the food moves only when eaten, and then off the obstacles; a tick that does not eat leaves the cached path as the autopilot left it (untouched in manual mode, `None` after a failed search) |
| Games.AddObstacles | static/game.js:380-386 | while running, adds exactly the obstacles `addRandom` places (0 to 20, off the snake and food), keeps the path, and ends the game exactly when no walk from head to food remains |
| Games.ToggleAuto | static/game.js:388-391 | flips the control mode and empties the cached path |
| Games.ModeSelect | static/game.js:376-379 | stops the game ticking |
| Games.KeyDown | static/game.js:393-405 | arrows steer through the reversal guard only in manual mode while running; space resets a finished game and leaves it stopped, with the obstacles, control mode and frame counter kept, until a mode is chosen again; anything else changes nothing; the session invariant is kept |
| Games.ButtonsKeepInv | static/game.js:376-391 | the button handlers keep the session invariant |

## Left out

- Drawing, the mode-selection screen, the score element, the game-over text and the animation loop are I/O with no effect on the state. The click geometry of the mode buttons is replaced by the `mode` argument of `Games.StartGame`.
- `Math.random` is an explicit stream and floating point is exact. `Math.floor(r * n)` is computed on reals, so rounding at the top of the range is not modelled.
- Food.Randomize: requires that some later draw is a free cell, because the game's retry loop has no bound and does not end on a full board.
- Games.Update: requires a fair stream and two vacant cells, so that the food placement after eating ends. The game does not check this.
- Games.Update: requires the session invariant. Every state reachable from `Games.Init` through these operations satisfies it.
- Games.Reset: requires a fair stream and a free cell other than the spawn cell, for the same reason.
- Games.StartGame: requires a fair stream and a free cell other than the spawn cell, for the same reason.
- Games.Init: requires a fair stream and a free cell other than the spawn cell, for the same reason.
- Games.KeyDown: requires a fair stream, and on a restart a free cell other than the spawn cell, for the same reason.
- Snakes.NoInstantReversal: requires a nonzero heading. A zero heading is its own reverse. The session invariant `Games.Inv` allows any cached path, so it cannot exclude a zero heading. Excluding one would need an invariant tying the cache to the head, which the model does not carry.
- Games.Update: does not keep "no two snake segments share a cell" as a session invariant. The autopilot can set non-unit headings after leaving its path. `Games.Inv` allows any cached path, so it does not rule out a zero heading either: that would need an invariant tying the cache to the head, which the model does not carry. `Snakes.UpdateKeepsDistinct` covers the nonzero-heading case.
- Maze.GenerateMaze: does not state that every open maze cell can be reached from the centre. Only the layout's shape and the carving's termination are proved.
- AStar.FindPathToFood: does not state that the path found is a shortest one. The heuristic and the re-open rule are modelled, but optimality is not proved.

=== FILE: astar.dfy ===
/**
  The snake's A* search from its head to the food (game.js:91-157).

  Nodes are values. A node's `parent` is the index, in the closed list, of
  the node it was expanded from (-1 for the start node); the closed list
  only grows, so these indices stay valid. The open list may hold several
  nodes for one cell.
 */
module AStar {
  import opened Grid
  import opened Optional
  import opened Snakes

  /** What the collision test reads: the canvas, the snake's body, the obstacles. */
  datatype Board = Board(cv: Canvas, body: seq<Cell>, obstacles: seq<Cell>)

  predicate Free(b: Board, c: Cell) {
    !Blocked(b.cv, b.body, b.obstacles, c)
  }

  datatype Node = Node(pos: Cell, parent: int, g: int, h: int, f: int)

  /** Expansion order: up, right, down, left. */
  const Directions: seq<Dir> := [Dir(0, -1), Dir(1, 0), Dir(0, 1), Dir(-1, 0)]

  /** The heuristic: squared Euclidean distance. */
  function SqDist(a: Cell, b: Cell): int {
    (a.x - b.x) * (a.x - b.x) + (a.y - b.y) * (a.y - b.y)
  }

  /**
    A route the snake could take: from `start` to `goal` in single-cell
    steps, every cell after the first free.
   */
  ghost predicate IsWalk(b: Board, start: Cell, goal: Cell, p: seq<Cell>) {
    && |p| > 0 && p[0] == start && p[|p| - 1] == goal
    && (forall i :: 0 <= i < |p| - 1 ==> Adjacent(p[i], p[i + 1]))
    && (forall i :: 1 <= i < |p| ==> Free(b, p[i]))
  }

  /** The cells a list of nodes stands on. */
  function Cells(s: seq<Node>): set<Cell> {
    set k | 0 <= k < |s| :: s[k].pos
  }

  lemma CellsAppend(s: seq<Node>, n: Node)
    ensures Cells(s + [n]) == Cells(s) + {n.pos}
  {
    var t := s + [n];
    assert t[|s|].pos == n.pos;
    forall c | c in Cells(s)
      ensures c in Cells(t)
    {
      var k :| 0 <= k < |s| && s[k].pos == c;
      assert t[k].pos == c;
    }
  }

  lemma CellsRemove(s: seq<Node>, m: nat)
    requires m < |s|
    ensures Cells(s) <= Cells(s[..m] + s[m + 1..]) + {s[m].pos}
  {
    var t := s[..m] + s[m + 1..];
    forall c | c in Cells(s)
      ensures c in Cells(t) + {s[m].pos}
    {
      var k :| 0 <= k < |s| && s[k].pos == c;
      if k < m {
        assert t[k] == s[k];
      } else if k > m {
        assert t[k - 1] == s[k];
      }
    }
  }

  /** `openList.find`: the first open node standing on `c`. */
  function FirstOpen(open: seq<Node>, c: Cell): (r: Option<Node>)
    ensures r.None? <==> c !in Cells(open)
    ensures r.Some? ==>
      exists k :: && 0 <= k < |open| && open[k] == r.value && r.value.pos == c
                  && forall j :: 0 <= j < k ==> open[j].pos != c
  {
    if |open| == 0 then None
    else if open[0].pos == c then
      Some(open[0])
    else
      var r := FirstOpen(open[1..], c);
      assert Cells(open) == {open[0].pos} + Cells(open[1..]) by {
        forall d | d in Cells(open)
          ensures d in {open[0].pos} + Cells(open[1..])
        {
          var k :| 0 <= k < |open| && open[k].pos == d;
          if k > 0 {
            assert open[1..][k - 1] == open[k];
          }
        }
        forall d | d in Cells(open[1..])
          ensures d in Cells(open)
        {
          var k :| 0 <= k < |open[1..]| && open[1..][k].pos == d;
          assert open[k + 1].pos == d;
        }
      }
      if r.Some? then
        var k :| && 0 <= k < |open[1..]| && open[1..][k] == r.value && r.value.pos == c
                 && forall j :: 0 <= j < k ==> open[1..][j].pos != c;
        assert forall j :: 0 <= j < k + 1 ==> open[j].pos != c by {
          forall j | 0 <= j < k + 1
            ensures open[j].pos != c
          {
            if j > 0 {
              assert open[j] == open[1..][j - 1];
            }
          }
        }
        assert open[k + 1] == r.value;
        r
      else r
  }

  /** Appending a node elsewhere, or behind an earlier match, leaves `find` unchanged. */
  lemma {:induction false} FirstOpenAppend(s: seq<Node>, n: Node, c: Cell)
    requires n.pos != c || c in Cells(s)
    ensures FirstOpen(s + [n], c) == FirstOpen(s, c)
    decreases |s|
  {
    if |s| == 0 {
      assert s + [n] == [n];
    } else {
      assert (s + [n])[1..] == s[1..] + [n];
      if s[0].pos != c {
        if c in Cells(s) {
          var k :| 0 <= k < |s| && s[k].pos == c;
          assert s[1..][k - 1].pos == c;
        }
        FirstOpenAppend(s[1..], n, c);
      }
    }
  }

  /**
    The open node the search expands next: one of minimal `f`, the earliest
    on a tie (the strict `<` of the `reduce`).
   */
  method SelectMin(open: seq<Node>) returns (m: nat)
    requires |open| > 0
    ensures m < |open|
    ensures forall k :: 0 <= k < |open| ==> open[m].f <= open[k].f
    ensures forall k :: 0 <= k < m ==> open[k].f > open[m].f
  {
    m := 0;
    var k := 0;
    while k < |open|
      invariant 0 <= k <= |open|
      invariant m < |open| && (m < k || m == 0)
      invariant forall i :: 0 <= i < k ==> open[m].f <= open[i].f
      invariant forall i :: 0 <= i < m ==> open[i].f > open[m].f
    {
      if open[k].f < open[m].f {
        m := k;
      }
      k := k + 1;
    }
  }

  /** The node the search is expanding: the last one closed. */
  function Current(closed: seq<Node>): Node
    requires |closed| > 0
  {
    closed[|closed| - 1]
  }

  /**
    `n` is a node pushed while expanding the current node: a free neighbour
    not yet closed, one step further from the start, scored against `goal`.
   */
  ghost predicate IsChild(b: Board, goal: Cell, closed: seq<Node>, n: Node)
    requires |closed| > 0
  {
    var cur := Current(closed);
    && n.parent == |closed| - 1
    && Adjacent(cur.pos, n.pos)
    && Free(b, n.pos)
    && n.pos !in Cells(closed)
    && n.g == cur.g + 1
    && n.h == SqDist(n.pos, goal)
    && n.f == n.g + n.h
  }

  /** The node that expanding the current node builds for cell `c`. */
  function Child(closed: seq<Node>, goal: Cell, c: Cell): (n: Node)
    requires |closed| > 0
    ensures n.pos == c && n.parent == |closed| - 1 && n.g == Current(closed).g + 1
    ensures n.h == SqDist(c, goal) && n.f == n.g + n.h
  {
    var g := Current(closed).g + 1;
    Node(c, |closed| - 1, g, SqDist(c, goal), g + SqDist(c, goal))
  }

  /** The re-open rule: no open node on that cell, or the first one costs more. */
  predicate PushAllowed(open: seq<Node>, n: Node) {
    var o := FirstOpen(open, n.pos);
    o.None? || o.value.g > n.g
  }

  lemma AdjacentIsStep(a: Cell, c: Cell)
    requires Adjacent(a, c)
    ensures exists i :: 0 <= i < 4 && c == Move(a, Directions[i])
  {
    if c.x == a.x && c.y == a.y - 1 {
      assert c == Move(a, Directions[0]);
    } else if c.x == a.x + 1 {
      assert c == Move(a, Directions[1]);
    } else if c.y == a.y + 1 {
      assert c == Move(a, Directions[2]);
    } else {
      assert c == Move(a, Directions[3]);
    }
  }

  /** The four expansion directions lead to four different cells. */
  lemma DirectionsDistinct(a: Cell, j: nat)
    requires j < 4
    ensures forall i :: 0 <= i < j ==> Move(a, Directions[i]) != Move(a, Directions[j])
  {
  }

  /**
    What the expansion loop keeps after trying the first `j` directions:
    the open list grew only at its end, by children that passed the
    re-open rule against the entry list, on distinct cells among the first
    `j` neighbours (`pushed`); `find` still answers as on the entry list
    for every other cell; every neighbour tried that passes the rule was
    pushed; every free neighbour tried is closed or open.
   */
  ghost predicate Expanded(b: Board, goal: Cell, closed: seq<Node>, open: seq<Node>, next: seq<Node>,
                           pushed: set<Cell>, j: int)
    requires |closed| > 0
  {
    var cur := Current(closed).pos;
    && 0 <= j <= 4
    && |open| <= |next| && next[..|open|] == open
    && (forall k :: |open| <= k < |next| ==> IsChild(b, goal, closed, next[k]) && PushAllowed(open, next[k]))
    && (forall k :: |open| <= k < |next| ==> next[k].pos in pushed)
    && (forall c :: c in pushed ==> exists i :: 0 <= i < j && c == Move(cur, Directions[i]))
    && (forall c :: c !in pushed ==> FirstOpen(next, c) == FirstOpen(open, c))
    && (forall k, l :: |open| <= k < l < |next| ==> next[k].pos != next[l].pos)
    && (forall i :: 0 <= i < j ==>
          var c := Move(cur, Directions[i]);
          Free(b, c) && c !in Cells(closed) && PushAllowed(open, Child(closed, goal, c)) ==>
            Child(closed, goal, c) in next[|open|..])
    && (forall i :: 0 <= i < j && Free(b, Move(cur, Directions[i])) ==>
          Move(cur, Directions[i]) in Cells(closed) || Move(cur, Directions[i]) in Cells(next))
  }

  /** Pushing the child for direction `j` keeps the loop's facts. */
  lemma PushStep(b: Board, goal: Cell, closed: seq<Node>, open: seq<Node>, next: seq<Node>,
                 pushed: set<Cell>, j: int)
    requires |closed| > 0 && 0 <= j < 4 && Expanded(b, goal, closed, open, next, pushed, j)
    requires var np := Move(Current(closed).pos, Directions[j]);
      Free(b, np) && np !in Cells(closed) && PushAllowed(next, Child(closed, goal, np))
    ensures var np := Move(Current(closed).pos, Directions[j]);
      Expanded(b, goal, closed, open, next + [Child(closed, goal, np)], pushed + {np}, j + 1)
  {
    var cur := Current(closed).pos;
    var np := Move(cur, Directions[j]);
    var node := Child(closed, goal, np);
    var next' := next + [node];
    DirectionsDistinct(cur, j);
    assert np !in pushed;
    forall c | c !in pushed + {np}
      ensures FirstOpen(next', c) == FirstOpen(open, c)
    {
      FirstOpenAppend(next, node, c);
    }
    CellsAppend(next, node);
    assert next'[..|open|] == open;
    assert next'[|open|..] == next[|open|..] + [node];
    forall k | |open| <= k < |next'|
      ensures IsChild(b, goal, closed, next'[k]) && PushAllowed(open, next'[k]) && next'[k].pos in pushed + {np}
    {
      if k < |next| {
        assert next'[k] == next[k];
      }
    }
    forall k, l | |open| <= k < l < |next'|
      ensures next'[k].pos != next'[l].pos
    {
      assert next'[k] == next[k];
      if l < |next| {
        assert next'[l] == next[l];
      }
    }
  }

  /** Skipping direction `j` keeps the loop's facts. */
  lemma SkipStep(b: Board, goal: Cell, closed: seq<Node>, open: seq<Node>, next: seq<Node>,
                 pushed: set<Cell>, j: int)
    requires |closed| > 0 && 0 <= j < 4 && Expanded(b, goal, closed, open, next, pushed, j)
    requires var np := Move(Current(closed).pos, Directions[j]);
      !(Free(b, np) && np !in Cells(closed) && PushAllowed(next, Child(closed, goal, np)))
    ensures Expanded(b, goal, closed, open, next, pushed, j + 1)
  {
    var cur := Current(closed).pos;
    var np := Move(cur, Directions[j]);
    DirectionsDistinct(cur, j);
    assert np !in pushed;
    if Free(b, np) && np !in Cells(closed) {
      assert FirstOpen(next, np).Some?;
    }
  }

  /**
    The children pushed so far (`next` beyond `start`) came from the
    directions `dirs`, tried in increasing order among the first `j`.
   */
  ghost predicate InDirectionOrder(cur: Cell, start: int, next: seq<Node>, dirs: seq<int>, j: int) {
    && 0 <= j <= 4 && 0 <= start && start + |dirs| == |next|
    && (forall m :: 0 <= m < |dirs| ==> 0 <= dirs[m] < j && next[start + m].pos == Move(cur, Directions[dirs[m]]))
    && (forall m, m' :: 0 <= m < m' < |dirs| ==> dirs[m] < dirs[m'])
  }

  /** Pushing the child for direction `j`, or skipping it, keeps the order. */
  lemma OrderStep(cur: Cell, start: int, next: seq<Node>, dirs: seq<int>, j: int, n: Node, pushes: bool)
    requires 0 <= j < 4 && InDirectionOrder(cur, start, next, dirs, j)
    requires pushes ==> n.pos == Move(cur, Directions[j])
    ensures pushes ==> InDirectionOrder(cur, start, next + [n], dirs + [j], j + 1)
    ensures !pushes ==> InDirectionOrder(cur, start, next, dirs, j + 1)
  {
    if pushes {
      var next', dirs' := next + [n], dirs + [j];
      forall m | 0 <= m < |dirs'|
        ensures 0 <= dirs'[m] < j + 1 && next'[start + m].pos == Move(cur, Directions[dirs'[m]])
      {
        if m < |dirs| {
          assert next'[start + m] == next[start + m];
        }
      }
    }
  }

  /** `a` and `b` are neighbours of `cur`, in directions tried in that order. */
  predicate TriedBefore(cur: Cell, a: Cell, b: Cell) {
    exists i, i' :: 0 <= i < i' < 4 && a == Move(cur, Directions[i]) && b == Move(cur, Directions[i'])
  }

  /** Pushed children come in the order their directions were tried. */
  lemma OrderedPushes(cur: Cell, start: int, next: seq<Node>, dirs: seq<int>)
    requires InDirectionOrder(cur, start, next, dirs, 4)
    ensures forall k, l :: start <= k < l < |next| ==> TriedBefore(cur, next[k].pos, next[l].pos)
  {
    forall k, l | start <= k < l < |next|
      ensures TriedBefore(cur, next[k].pos, next[l].pos)
    {
      var m, m' := k - start, l - start;
      assert next[start + m] == next[k] && next[start + m'] == next[l];
      var i, i' := dirs[m], dirs[m'];
      assert 0 <= i < i' < 4 && next[k].pos == Move(cur, Directions[i]) && next[l].pos == Move(cur, Directions[i']);
    }
  }

  /**
    Expands the current node: for each direction, a free neighbour that is
    not closed gets a node unless an open node on that cell is at least as
    cheap. The neighbours are four different cells, so testing the rule
    against the growing list is the same as testing it against the list
    the expansion started from. Afterwards every free neighbour is closed
    or open.
   */
  method Expand(b: Board, goal: Cell, closed: seq<Node>, open: seq<Node>) returns (next: seq<Node>)
    requires |closed| > 0
    ensures |open| <= |next| && next[..|open|] == open
    ensures forall k :: |open| <= k < |next| ==> IsChild(b, goal, closed, next[k]) && PushAllowed(open, next[k])
    ensures forall k, l :: |open| <= k < l < |next| ==> next[k].pos != next[l].pos
    ensures forall k, l :: |open| <= k < l < |next| ==> TriedBefore(Current(closed).pos, next[k].pos, next[l].pos)
    ensures forall c ::
      (Adjacent(Current(closed).pos, c) && Free(b, c) && c !in Cells(closed) && PushAllowed(open, Child(closed, goal, c)))
      ==> Child(closed, goal, c) in next[|open|..]
    ensures forall c :: Adjacent(Current(closed).pos, c) && Free(b, c) ==> c in Cells(closed) || c in Cells(next)
  {
    var cur := Current(closed);
    next := open;
    ghost var pushed: set<Cell> := {};
    ghost var dirs: seq<int> := [];
    var j := 0;
    while j < 4
      invariant 0 <= j <= 4
      invariant Expanded(b, goal, closed, open, next, pushed, j)
      invariant InDirectionOrder(cur.pos, |open|, next, dirs, j)
    {
      var np := Move(cur.pos, Directions[j]);
      var hit := CheckCollision(b.cv, b.body, b.obstacles, np);
      var pushes := false;
      if !hit && np !in Cells(closed) {
        var node := Child(closed, goal, np);
        var existing := FirstOpen(next, np);
        if existing.None? || existing.value.g > node.g {
          PushStep(b, goal, closed, open, next, pushed, j);
          OrderStep(cur.pos, |open|, next, dirs, j, node, true);
          next := next + [node];
          pushed := pushed + {np};
          dirs := dirs + [j];
          pushes := true;
        }
      }
      if !pushes {
        SkipStep(b, goal, closed, open, next, pushed, j);
        OrderStep(cur.pos, |open|, next, dirs, j, cur, false);
      }
      j := j + 1;
    }
    forall c | Adjacent(cur.pos, c) && Free(b, c)
      ensures c in Cells(closed) || c in Cells(next)
    {
      AdjacentIsStep(cur.pos, c);
    }
    forall c | Adjacent(cur.pos, c) && Free(b, c) && c !in Cells(closed) && PushAllowed(open, Child(closed, goal, c))
      ensures Child(closed, goal, c) in next[|open|..]
    {
      AdjacentIsStep(cur.pos, c);
    }
    OrderedPushes(cur.pos, |open|, next, dirs);
  }

  /** Parent indices point strictly backwards. */
  ghost predicate Linked(closed: seq<Node>) {
    forall i :: 0 <= i < |closed| ==> closed[i].parent == -1 || 0 <= closed[i].parent < i
  }

  /** The cells from the start node to node `i`, following parent links. */
  ghost function Trace(closed: seq<Node>, i: int): seq<Cell>
    requires Linked(closed) && 0 <= i < |closed|
    decreases i
  {
    if closed[i].parent == -1 then [closed[i].pos]
    else Trace(closed, closed[i].parent) + [closed[i].pos]
  }

  /** `n` is either the start node or hangs off a closed node below `bound`. */
  ghost predicate LinkOk(b: Board, start: Cell, closed: seq<Node>, n: Node, bound: int) {
    if n.parent == -1 then n.pos == start
    else
      && 0 <= n.parent < bound && n.parent < |closed|
      && Adjacent(closed[n.parent].pos, n.pos)
      && Free(b, n.pos)
  }

  ghost predicate ChainOk(b: Board, start: Cell, closed: seq<Node>) {
    forall i :: 0 <= i < |closed| ==> LinkOk(b, start, closed, closed[i], i)
  }

  ghost predicate OpenOk(b: Board, start: Cell, closed: seq<Node>, open: seq<Node>) {
    forall n :: n in open ==> LinkOk(b, start, closed, n, |closed|)
  }

  /** Following parent links from any closed node yields a walk from the start. */
  lemma {:induction false} TraceIsWalk(b: Board, start: Cell, closed: seq<Node>, i: int)
    requires ChainOk(b, start, closed) && 0 <= i < |closed|
    ensures Linked(closed)
    ensures IsWalk(b, start, closed[i].pos, Trace(closed, i))
    decreases i
  {
    assert LinkOk(b, start, closed, closed[i], i);
    assert Linked(closed) by {
      forall k | 0 <= k < |closed|
        ensures closed[k].parent == -1 || 0 <= closed[k].parent < k
      {
        assert LinkOk(b, start, closed, closed[k], k);
      }
    }
    if closed[i].parent != -1 {
      var p := closed[i].parent;
      TraceIsWalk(b, start, closed, p);
      var t := Trace(closed, p);
      var r := t + [closed[i].pos];
      assert Trace(closed, i) == r;
      forall k | 0 <= k < |r| - 1
        ensures Adjacent(r[k], r[k + 1])
      {
        if k < |t| - 1 {
          assert r[k] == t[k] && r[k + 1] == t[k + 1];
        }
      }
      forall k | 1 <= k < |r|
        ensures Free(b, r[k])
      {
        if k < |t| {
          assert r[k] == t[k];
        }
      }
    }
  }

  /** The elements of `s` in the opposite order. */
  function Reverse<T>(s: seq<T>): (r: seq<T>)
    ensures |r| == |s|
    ensures forall k :: 0 <= k < |s| ==> r[k] == s[|s| - 1 - k]
  {
    if |s| == 0 then [] else [s[|s| - 1]] + Reverse(s[..|s| - 1])
  }

  /** Collecting node `cur` and moving to its parent keeps the trace split. */
  lemma CollectStep(closed: seq<Node>, i: int, cur: int, collected: seq<Cell>)
    requires Linked(closed) && 0 <= i < |closed| && 0 <= cur < |closed|
    requires Trace(closed, i) == Trace(closed, cur) + Reverse(collected)
    ensures var up := closed[cur].parent;
      Trace(closed, i) == (if up == -1 then [] else Trace(closed, up)) + Reverse(collected + [closed[cur].pos])
  {
    var up, x := closed[cur].parent, closed[cur].pos;
    var a := if up == -1 then [] else Trace(closed, up);
    var c := collected + [x];
    assert Trace(closed, cur) == a + [x];
    assert c[..|c| - 1] == collected;
    assert Reverse(c) == [x] + Reverse(collected);
    assert (a + [x]) + Reverse(collected) == a + ([x] + Reverse(collected));
  }

  /** Collects cells from node `i` back to the start, then reverses them. */
  method Reconstruct(closed: seq<Node>, i: int) returns (path: seq<Cell>)
    requires Linked(closed) && 0 <= i < |closed|
    ensures path == Trace(closed, i)
  {
    var collected: seq<Cell> := [];
    var cur := i;
    while cur != -1
      invariant -1 <= cur < |closed|
      invariant Trace(closed, i) == (if cur == -1 then [] else Trace(closed, cur)) + Reverse(collected)
      decreases cur + 1
    {
      CollectStep(closed, i, cur, collected);
      collected := collected + [closed[cur].pos];
      cur := closed[cur].parent;
    }
    path := Reverse(collected);
  }

  /** Open nodes whose cell has already been closed. */
  function StaleCount(open: seq<Node>, cc: set<Cell>): nat {
    if |open| == 0 then 0
    else StaleCount(open[..|open| - 1], cc) + (if open[|open| - 1].pos in cc then 1 else 0)
  }

  lemma {:induction false} StaleConcat(a: seq<Node>, b: seq<Node>, cc: set<Cell>)
    ensures StaleCount(a + b, cc) == StaleCount(a, cc) + StaleCount(b, cc)
    decreases |b|
  {
    if |b| > 0 {
      var b' := b[..|b| - 1];
      assert (a + b)[..|a + b| - 1] == a + b';
      StaleConcat(a, b', cc);
    } else {
      assert a + b == a;
    }
  }

  lemma {:induction false} StaleNone(b: seq<Node>, cc: set<Cell>)
    requires forall k :: 0 <= k < |b| ==> b[k].pos !in cc
    ensures StaleCount(b, cc) == 0
    decreases |b|
  {
    if |b| > 0 {
      StaleNone(b[..|b| - 1], cc);
    }
  }

  lemma StaleRemove(open: seq<Node>, m: nat, cc: set<Cell>)
    requires m < |open| && open[m].pos in cc
    ensures StaleCount(open[..m] + open[m + 1..], cc) < StaleCount(open, cc)
  {
    assert open == open[..m] + [open[m]] + open[m + 1..];
    StaleConcat(open[..m] + [open[m]], open[m + 1..], cc);
    StaleConcat(open[..m], [open[m]], cc);
    StaleConcat(open[..m], open[m + 1..], cc);
    assert StaleCount([open[m]], cc) == 1 by {
      assert [open[m]][..0] == [];
    }
  }

  /** Closedness is a barrier: a walk that starts inside a closed-under-steps set stays inside. */
  lemma {:induction false} WalkStaysInside(b: Board, cc: set<Cell>, p: seq<Cell>, k: nat)
    requires |p| > 0 && p[0] in cc
    requires forall i :: 0 <= i < |p| - 1 ==> Adjacent(p[i], p[i + 1])
    requires forall i :: 1 <= i < |p| ==> Free(b, p[i])
    requires forall c, d :: c in cc && Adjacent(c, d) && Free(b, d) ==> d in cc
    requires k < |p|
    ensures p[k] in cc
    decreases k
  {
    if k > 0 {
      WalkStaysInside(b, cc, p, k - 1);
      assert Adjacent(p[k - 1], p[k]);
    }
  }

  /** Removing the selected node and closing it keeps every link intact. */
  lemma PopKeeps(b: Board, start: Cell, closed: seq<Node>, open: seq<Node>, m: nat)
    requires m < |open|
    requires ChainOk(b, start, closed) && OpenOk(b, start, closed, open)
    ensures ChainOk(b, start, closed + [open[m]])
    ensures OpenOk(b, start, closed + [open[m]], open[..m] + open[m + 1..])
    ensures Cells(closed + [open[m]]) == Cells(closed) + {open[m].pos}
    ensures Cells(open) <= Cells(open[..m] + open[m + 1..]) + {open[m].pos}
    ensures forall n :: n in open[..m] + open[m + 1..] ==> n in open
  {
    var closed' := closed + [open[m]];
    var open' := open[..m] + open[m + 1..];
    assert LinkOk(b, start, closed, open[m], |closed|);
    forall i | 0 <= i < |closed'|
      ensures LinkOk(b, start, closed', closed'[i], i)
    {
      if i < |closed| {
        assert LinkOk(b, start, closed, closed[i], i);
      }
    }
    forall n | n in open'
      ensures n in open && LinkOk(b, start, closed', n, |closed'|)
    {
      var k :| 0 <= k < |open'| && open'[k] == n;
      if k < m {
        assert open[k] == n;
      } else {
        assert open[k + 1] == n;
      }
      assert LinkOk(b, start, closed, n, |closed|);
    }
    CellsAppend(closed, open[m]);
    CellsRemove(open, m);
  }

  /** The nodes an expansion appends keep the open list well linked, inside the universe and fresh. */
  lemma ExpandKeeps(b: Board, start: Cell, goal: Cell, closed: seq<Node>, open: seq<Node>, next: seq<Node>, universe: set<Cell>)
    requires |closed| > 0 && OpenOk(b, start, closed, open)
    requires GridCells(b.cv) <= universe
    requires forall n :: n in open ==> n.pos in universe
    requires |open| <= |next| && next[..|open|] == open
    requires forall k :: |open| <= k < |next| ==> IsChild(b, goal, closed, next[k])
    ensures OpenOk(b, start, closed, next)
    ensures forall n :: n in next ==> n.pos in universe
    ensures Cells(open) <= Cells(next)
    ensures StaleCount(next, Cells(closed)) == StaleCount(open, Cells(closed))
  {
    var ext := next[|open|..];
    assert next == open + ext;
    forall n | n in next
      ensures LinkOk(b, start, closed, n, |closed|) && n.pos in universe
    {
      var k :| 0 <= k < |next| && next[k] == n;
      if k < |open| {
        assert open[k] == n;
      } else {
        assert IsChild(b, goal, closed, next[k]);
        OnCanvasIsGridCell(b.cv, n.pos);
      }
    }
    forall c | c in Cells(open)
      ensures c in Cells(next)
    {
      var k :| 0 <= k < |open| && open[k].pos == c;
      assert next[k] == open[k];
    }
    StaleConcat(open, ext, Cells(closed));
    StaleNone(ext, Cells(closed)) by {
      forall k | 0 <= k < |ext|
        ensures ext[k].pos !in Cells(closed)
      {
        assert IsChild(b, goal, closed, next[|open| + k]);
      }
    }
  }

  /** One expansion keeps every free neighbour of a closed cell closed or open. */
  lemma ClosureStep(b: Board, c0: set<Cell>, o0: set<Cell>, c1: set<Cell>, o1: set<Cell>, o2: set<Cell>, p: Cell)
    requires forall c, d :: c in c0 && Adjacent(c, d) && Free(b, d) ==> d in c0 || d in o0
    requires c1 == c0 + {p} && o0 <= o1 + {p} && o1 <= o2
    requires forall d :: Adjacent(p, d) && Free(b, d) ==> d in c1 || d in o2
    ensures forall c, d :: c in c1 && Adjacent(c, d) && Free(b, d) ==> d in c1 || d in o2
  {
  }

  /**
    The search of `findPathToFood`. A returned path is a walk from the head
    to the food; `None` comes back only when the open list has run dry, and
    then no walk exists at all.
   */
  method FindPathToFood(b: Board, goal: Cell) returns (r: Option<seq<Cell>>)
    requires |b.body| > 0
    ensures r.Some? ==> IsWalk(b, b.body[0], goal, r.value)
    ensures r.None? ==> forall p :: !IsWalk(b, b.body[0], goal, p)
  {
    var start := b.body[0];
    ghost var universe := GridCells(b.cv) + {start};
    var open := [Node(start, -1, 0, 0, 0)];
    var closed: seq<Node> := [];
    while |open| > 0
      invariant ChainOk(b, start, closed)
      invariant OpenOk(b, start, closed, open)
      invariant goal !in Cells(closed)
      invariant |closed| == 0 ==> open == [Node(start, -1, 0, 0, 0)]
      invariant |closed| > 0 ==> start in Cells(closed)
      invariant forall c, d :: c in Cells(closed) && Adjacent(c, d) && Free(b, d) ==>
        d in Cells(closed) || d in Cells(open)
      invariant forall n :: n in open ==> n.pos in universe
      decreases universe - Cells(closed), StaleCount(open, Cells(closed))
    {
      ghost var closed0, open0 := closed, open;
      var m := SelectMin(open);
      var cur := open[m];
      open := open[..m] + open[m + 1..];
      closed := closed + [cur];
      PopKeeps(b, start, closed0, open0, m);
      if cur.pos == goal {
        TraceIsWalk(b, start, closed, |closed| - 1);
        var path := Reconstruct(closed, |closed| - 1);
        return Some(path);
      }
      ghost var open1 := open;
      open := Expand(b, goal, closed, open);
      ExpandKeeps(b, start, goal, closed, open1, open, universe);
      ClosureStep(b, Cells(closed0), Cells(open0), Cells(closed), Cells(open1), Cells(open), cur.pos);
      if cur.pos in Cells(closed0) {
        assert Cells(closed) == Cells(closed0);
        StaleRemove(open0, m, Cells(closed));
      } else {
        assert universe - Cells(closed) < universe - Cells(closed0);
      }
    }
    assert start in Cells(closed);
    forall p | IsWalk(b, start, goal, p)
      ensures false
    {
      WalkStaysInside(b, Cells(closed), p, |p| - 1);
    }
    return None;
  }
}

=== FILE: autopilot.dfy ===
/**
  The autopilot's step, `autoMove` (game.js:159-177): fetch a path when the
  cache is missing or empty, then aim at the cached path's second cell.
 */
module Autopilot {
  import opened Grid
  import opened Optional
  import opened Snakes
  import opened AStar

  /** The cache is `null` or empty, so `autoMove` must search. */
  predicate NeedsPath(s: Snake) {
    s.path.None? || |s.path.value| == 0
  }

  /**
    `r` is `s` after following the cached path `p` one step: with a second
    cell, the snake asks to turn toward it and the first cell is dropped;
    otherwise nothing but the cache changes.
   */
  predicate Followed(s: Snake, p: seq<Cell>, r: Snake)
    requires |s.positions| > 0
  {
    if |p| > 1 then r == SetDirection(s, Delta(s.positions[0], p[1])).(path := Some(p[1..]))
    else r == s.(path := Some(p))
  }

  /**
    One autopilot decision. It searches only when the cache is missing or
    empty and fails only when that search finds nothing; the body and
    target length are never touched.
   */
  method AutoMove(cv: Canvas, s: Snake, obstacles: seq<Cell>, food: Cell) returns (r: Snake, ok: bool)
    requires |s.positions| > 0
    ensures r.positions == s.positions && r.length == s.length
    ensures !NeedsPath(s) ==> ok && Followed(s, s.path.value, r)
    ensures NeedsPath(s) ==>
      (ok <==> exists p :: IsWalk(Board(cv, s.positions, obstacles), s.positions[0], food, p))
    ensures NeedsPath(s) && !ok ==> r == s.(path := None)
    ensures NeedsPath(s) && ok ==>
      exists p :: IsWalk(Board(cv, s.positions, obstacles), s.positions[0], food, p) && Followed(s, p, r)
  {
    var path := s.path;
    if path.None? || |path.value| == 0 {
      path := FindPathToFood(Board(cv, s.positions, obstacles), food);
      if path.None? {
        return s.(path := None), false;
      }
    }
    var p := path.value;
    r := s.(path := path);
    if |p| > 1 {
      var nextPos := p[1];
      var currentPos := s.positions[0];
      r := SetDirection(r, Delta(currentPos, nextPos)).(path := Some(p[1..]));
    }
    ok := true;
  }

  /**
    The next step lands on the path's second cell unless that cell lies
    straight behind the head: then the turn is refused and the snake keeps
    going, leaving the path.
   */
  lemma FollowedStep(s: Snake, p: seq<Cell>, r: Snake)
    requires |s.positions| > 0 && |p| > 1 && Followed(s, p, r)
    ensures Delta(s.positions[0], p[1]) != Negate(s.direction) ==> NextHead(r) == p[1]
    ensures Delta(s.positions[0], p[1]) == Negate(s.direction) ==> NextHead(r) == NextHead(s)
  {
  }

  /**
    A refused reversal still consumes the waypoint: the heading stays, and
    the cache now starts at a cell the snake is not entering.
   */
  lemma ReversalLeavesPath(s: Snake, p: seq<Cell>, r: Snake)
    requires |s.positions| > 0 && |p| > 1 && Followed(s, p, r)
    requires s.direction != Dir(0, 0) && p[1] == Move(s.positions[0], Negate(s.direction))
    ensures r.direction == s.direction && r.path == Some(p[1..])
    ensures NextHead(r) != r.path.value[0]
  {
  }

  /**
    A cache holding one cell is neither refreshed nor followed: the snake
    keeps its heading until eating empties the cache.
   */
  lemma ShortCacheKeepsHeading(s: Snake, r: Snake)
    requires |s.positions| > 0 && s.path.Some? && |s.path.value| == 1
    requires Followed(s, s.path.value, r)
    ensures !NeedsPath(s) && r == s
  {
  }
}

=== FILE: food.dfy ===
/** Food placement, `Food.randomize` (game.js:188-202). */
module Food {
  import opened Grid
  import opened Oracle

  /** Food may go here: no snake segment (head included) and no obstacle. */
  predicate FoodFree(positions: seq<Cell>, obstacles: seq<Cell>, c: Cell) {
    c !in positions && c !in obstacles
  }

  /** Retry `i` of the loop started at `p` draws a usable cell. */
  predicate FreeDraw(cv: Canvas, positions: seq<Cell>, obstacles: seq<Cell>, rand: Rand, p: nat, i: nat) {
    FoodFree(positions, obstacles, DrawAt(rand, cv, p, i))
  }

  /**
    Draws cells until one is free. The loop has no bound of its own, so the
    caller must know that the stream eventually yields a free cell. The
    result is the first free draw and lies on the canvas.
   */
  method Randomize(cv: Canvas, positions: seq<Cell>, obstacles: seq<Cell>, rand: Rand, p: nat)
    returns (food: Cell, next: nat)
    requires cv.width > 0 && cv.height > 0
    requires exists i: nat :: FreeDraw(cv, positions, obstacles, rand, p, i)
    ensures OnCanvas(cv, food) && FoodFree(positions, obstacles, food)
    ensures exists i: nat :: && next == p + 2 * (i + 1)
                             && food == DrawAt(rand, cv, p, i)
                             && forall j :: 0 <= j < i ==> !FreeDraw(cv, positions, obstacles, rand, p, j)
  {
    ghost var bound: nat :| FreeDraw(cv, positions, obstacles, rand, p, bound);
    var i: nat := 0;
    food := DrawAt(rand, cv, p, i);
    while !FoodFree(positions, obstacles, food)
      invariant i <= bound
      invariant food == DrawAt(rand, cv, p, i)
      invariant forall j :: 0 <= j < i ==> !FreeDraw(cv, positions, obstacles, rand, p, j)
      decreases bound - i
    {
      i := i + 1;
      food := DrawAt(rand, cv, p, i);
    }
    next := p + 2 * (i + 1);
  }

  /** A fair stream and a free on-canvas cell are enough for the retry loop to end. */
  lemma FairFindsFood(cv: Canvas, positions: seq<Cell>, obstacles: seq<Cell>, rand: Rand, p: nat, c: Cell)
    requires Fair(rand, cv) && OnCanvas(cv, c) && FoodFree(positions, obstacles, c)
    ensures exists i: nat :: FreeDraw(cv, positions, obstacles, rand, p, i)
  {
    assert Hits(rand, cv, c, p);
    var i: nat :| DrawAt(rand, cv, p, i) == c;
    assert FreeDraw(cv, positions, obstacles, rand, p, i);
  }
}

=== FILE: game.dfy ===
/**
  The session (`Game`, game.js:348-513): start and reset, the per-frame
  tick, food consumption, and what the buttons and keys change. Drawing
  and the DOM are left out; the canvas size and the random stream are
  parameters.
 */
module Games {
  import opened Grid
  import opened Optional
  import opened Oracle
  import opened Snakes
  import AStar
  import Autopilot
  import Food
  import Obstacles

  /** `updateInterval`: the state advances on every tenth frame. */
  const UpdateInterval: int := 10

  /** `draws` is the index of the next unread value of the random stream. */
  datatype Game = Game(snake: Snake, food: Cell, obstacles: seq<Cell>, score: int,
                       autoMode: bool, gameOver: bool, gameStarted: bool,
                       frameCount: int, draws: nat)

  datatype Key = ArrowUp | ArrowDown | ArrowLeft | ArrowRight | Space | OtherKey

  /**
    What holds between events: a well-formed snake, one point per food
    eaten, and food on the canvas and off the snake.
   */
  predicate Inv(cv: Canvas, g: Game) {
    && Snakes.Inv(cv, g.snake)
    && g.score == g.snake.length - 1
    && OnCanvas(cv, g.food)
    && g.food !in g.snake.positions
  }

  /** A cell the food could move to. */
  predicate Vacant(cv: Canvas, g: Game, c: Cell) {
    OnCanvas(cv, c) && c !in g.snake.positions && c !in g.obstacles
  }

  /** Two vacant cells: after one step at least one is still free for the food. */
  ghost predicate Roomy(cv: Canvas, g: Game) {
    exists a, b :: a != b && Vacant(cv, g, a) && Vacant(cv, g, b)
  }

  /** A fresh snake at the centre leaves a free cell outside these obstacles. */
  ghost predicate ResetRoom(cv: Canvas, obstacles: seq<Cell>) {
    exists c :: OnCanvas(cv, c) && c != Spawn(cv) && c !in obstacles
  }

  /** No walk leads from the snake's head to the food. */
  ghost predicate Stranded(cv: Canvas, g: Game)
    requires |g.snake.positions| > 0
  {
    forall p :: !AStar.IsWalk(AStar.Board(cv, g.snake.positions, g.obstacles), g.snake.positions[0], g.food, p)
  }

  /** The tick does real work: started, a tenth frame, not over. */
  predicate Ticks(g: Game) {
    g.gameStarted && (g.frameCount + 1) % UpdateInterval == 0 && !g.gameOver
  }

  /** The constructor: no obstacles, a fresh snake, food, autopilot on, not started. */
  method Init(cv: Canvas, rand: Rand) returns (g: Game)
    requires cv.Valid() && Fair(rand, cv) && ResetRoom(cv, [])
    ensures Inv(cv, g)
    ensures g.obstacles == [] && g.score == 0 && g.autoMode && !g.gameOver && !g.gameStarted
    ensures g.snake == Snakes.Reset(cv) && g.frameCount == 0
    ensures g.food != Spawn(cv)
  {
    var snake := Snakes.Reset(cv);
    var c :| OnCanvas(cv, c) && c != Spawn(cv) && c !in [];
    Food.FairFindsFood(cv, snake.positions, [], rand, 0, c);
    var food, p := Food.Randomize(cv, snake.positions, [], rand, 0);
    g := Game(snake, food, [], 0, true, false, false, 0, p);
  }

  /**
    `reset`: a fresh one-cell snake, new food off the snake and off the
    CURRENT obstacles, score zero; obstacles and control mode are kept.
   */
  method Reset(cv: Canvas, rand: Rand, g: Game) returns (r: Game)
    requires cv.Valid() && Fair(rand, cv) && ResetRoom(cv, g.obstacles)
    ensures Inv(cv, r)
    ensures r.snake == Snakes.Reset(cv) && r.score == 0 && !r.gameOver && !r.gameStarted
    ensures r.food !in r.obstacles
    ensures r.obstacles == g.obstacles && r.autoMode == g.autoMode && r.frameCount == g.frameCount
    ensures r.draws > g.draws
  {
    var snake := Snakes.Reset(cv);
    var c :| OnCanvas(cv, c) && c != Spawn(cv) && c !in g.obstacles;
    Food.FairFindsFood(cv, snake.positions, g.obstacles, rand, g.draws, c);
    var food, p := Food.Randomize(cv, snake.positions, g.obstacles, rand, g.draws);
    r := g.(score := 0, gameOver := false, gameStarted := false, snake := snake, food := food, draws := p);
  }

  /**
    `startGame`: reset, then a fresh obstacle layout. The food was placed
    against the OLD layout, so only the random layout (which avoids the
    food) keeps the food off the obstacles; a maze may wall it in.
   */
  method StartGame(cv: Canvas, rand: Rand, g: Game, mode: Obstacles.Mode) returns (r: Game)
    requires cv.Valid() && Fair(rand, cv) && ResetRoom(cv, g.obstacles)
    ensures Inv(cv, r)
    ensures r.gameStarted && !r.gameOver && r.score == 0 && r.snake == Snakes.Reset(cv)
    ensures NoDuplicates(r.obstacles)
    ensures Spawn(cv) !in r.obstacles
    ensures mode == Obstacles.RandomMode ==>
      r.food !in r.obstacles && forall c :: c in r.obstacles ==> Chebyshev(c, Spawn(cv)) > 1
    ensures exists p: nat :: r.obstacles == Obstacles.Initialize(mode, cv, [Spawn(cv)], r.food, rand, p).0
    ensures r.food !in g.obstacles
    ensures r.autoMode == g.autoMode && r.frameCount == g.frameCount
  {
    var g1 := Reset(cv, rand, g);
    var layout := Obstacles.Initialize(mode, cv, g1.snake.positions, g1.food, rand, g1.draws);
    if mode == Obstacles.RandomMode {
      var q := Obstacles.GenerateRandom(cv, g1.snake.positions, g1.food, rand, g1.draws);
      assert layout == q;
    }
    r := g1.(obstacles := layout.0, draws := layout.1, gameOver := false, gameStarted := true);
    assert r.obstacles == Obstacles.Initialize(mode, cv, [Spawn(cv)], r.food, rand, g1.draws).0;
  }

  /**
    `Game.checkCollision`: when the head is on the food the snake is due one
    more cell, the score rises by one, the cached path is dropped and the
    food moves to a cell off the snake and the obstacles. Otherwise nothing
    changes.
   */
  method CheckCollision(cv: Canvas, rand: Rand, g: Game) returns (r: Game, ate: bool)
    requires cv.width > 0 && cv.height > 0 && |g.snake.positions| > 0
    requires g.snake.positions[0] == g.food ==>
      exists i: nat :: Food.FreeDraw(cv, g.snake.positions, g.obstacles, rand, g.draws, i)
    ensures ate <==> g.snake.positions[0] == g.food
    ensures !ate ==> r == g
    ensures ate ==> && r.snake == g.snake.(length := g.snake.length + 1, path := Some([]))
                    && r.score == g.score + 1
                    && OnCanvas(cv, r.food) && r.food !in r.snake.positions && r.food !in r.obstacles
                    && r == g.(snake := r.snake, score := r.score, food := r.food, draws := r.draws)
  {
    var head := g.snake.positions[0];
    if head == g.food {
      var snake := g.snake.(length := g.snake.length + 1);
      var food, p := Food.Randomize(cv, snake.positions, g.obstacles, rand, g.draws);
      r := g.(snake := snake.(path := Some([])), score := g.score + 1, food := food, draws := p);
      return r, true;
    }
    return g, false;
  }

  /** After a step, one of two cells that were vacant is still free for the food. */
  lemma StepLeavesRoom(cv: Canvas, rand: Rand, g: Game, positions: seq<Cell>)
    requires Fair(rand, cv) && Roomy(cv, g) && |positions| > 0
    requires positions[1..] <= g.snake.positions
    ensures exists i: nat :: Food.FreeDraw(cv, positions, g.obstacles, rand, g.draws, i)
  {
    var a, b :| a != b && Vacant(cv, g, a) && Vacant(cv, g, b);
    var c := if a != positions[0] then a else b;
    assert c !in positions;
    Food.FairFindsFood(cv, positions, g.obstacles, rand, g.draws, c);
  }

  /**
    One frame of `Game.update`. Frames that do not tick change at most the
    frame counter. A tick asks the autopilot (when on) for a heading, moves
    the snake and lets it eat; the game ends when the autopilot finds no
    path or the snake collides, and then the snake has not moved.
   */
  method Update(cv: Canvas, rand: Rand, g: Game) returns (r: Game)
    requires cv.Valid() && Fair(rand, cv) && Inv(cv, g) && Roomy(cv, g)
    ensures Inv(cv, r)
    ensures !g.gameStarted ==> r == g
    ensures g.gameStarted && !Ticks(g) ==> r == g.(frameCount := g.frameCount + 1)
    ensures r.obstacles == g.obstacles && r.autoMode == g.autoMode && r.gameStarted == g.gameStarted
    ensures g.gameOver ==> r.gameOver
    ensures Ticks(g) && r.gameOver ==> r.snake.positions == g.snake.positions && r.score == g.score
    ensures Ticks(g) && !r.gameOver ==>
      && r.snake.positions[0] == Move(g.snake.positions[0], r.snake.direction)
      && !Blocked(cv, g.snake.positions, g.obstacles, r.snake.positions[0])
      && (r.score == g.score + 1 <==> r.snake.positions[0] == g.food)
    ensures Ticks(g) && g.autoMode && Autopilot.NeedsPath(g.snake) && Stranded(cv, g) ==> r.gameOver
    ensures Ticks(g) && r.gameOver ==>
      || (g.autoMode && Autopilot.NeedsPath(g.snake) && Stranded(cv, g))
      || Blocked(cv, g.snake.positions, g.obstacles, Move(g.snake.positions[0], r.snake.direction))
    ensures Ticks(g) && !r.gameOver ==>
      r.snake.positions == Snakes.Update(cv, g.snake.(direction := r.snake.direction), g.obstacles).0.positions
    ensures !g.autoMode ==> r.snake.direction == g.snake.direction
    ensures Ticks(g) && g.autoMode && !Autopilot.NeedsPath(g.snake) ==>
      exists a :: && Autopilot.Followed(g.snake, g.snake.path.value, a) && r.snake.direction == a.direction
                  && (r.score == g.score ==> r.snake.path == a.path)
    ensures Ticks(g) && g.autoMode && Autopilot.NeedsPath(g.snake) && !r.gameOver ==>
      exists p, a :: && AStar.IsWalk(AStar.Board(cv, g.snake.positions, g.obstacles), g.snake.positions[0], g.food, p)
                     && Autopilot.Followed(g.snake, p, a) && r.snake.direction == a.direction
                     && (r.score == g.score ==> r.snake.path == a.path)
    ensures Ticks(g) && g.autoMode && Autopilot.NeedsPath(g.snake) && Stranded(cv, g) ==> r.snake.path == None
    ensures !g.autoMode && r.score == g.score ==> r.snake.path == g.snake.path
    ensures g.gameStarted ==> r.frameCount == g.frameCount + 1
    ensures r.score == g.score ==> r.food == g.food
    ensures r.score == g.score + 1 ==> r.food !in r.obstacles
    ensures r.score == g.score || (r.score == g.score + 1 && r.snake.length == g.snake.length + 1 && r.snake.path == Some([]))
  {
    r := g;
    if !g.gameStarted {
      return;
    }
    r := r.(frameCount := r.frameCount + 1);
    if r.frameCount % UpdateInterval != 0 {
      return;
    }
    if r.gameOver {
      return;
    }
    if r.autoMode {
      var s, ok := Autopilot.AutoMove(cv, r.snake, r.obstacles, r.food);
      r := r.(snake := s);
      if !ok {
        r := r.(gameOver := true);
        return;
      }
    }
    var step := Snakes.Update(cv, r.snake, r.obstacles);
    UpdateKeepsInv(cv, r.snake, r.obstacles);
    if !step.1 {
      r := r.(gameOver := true);
      return;
    }
    r := r.(snake := step.0);
    if r.snake.positions[0] == r.food {
      StepLeavesRoom(cv, rand, g, r.snake.positions);
    }
    var ate;
    r, ate := CheckCollision(cv, rand, r);
    if !ate {
      assert r.food !in r.snake.positions by {
        forall k | 0 <= k < |r.snake.positions|
          ensures r.snake.positions[k] != r.food
        {
          if k > 0 {
            assert r.snake.positions[k] == r.snake.positions[1..][k - 1];
          }
        }
      }
    }
  }

  /**
    The add-obstacles button: while the game runs, 10 to 20 more obstacles
    (none on the snake or the food), and the game ends exactly when the
    food can no longer be reached. The cached path is kept as it was.
   */
  method AddObstacles(cv: Canvas, rand: Rand, g: Game) returns (r: Game)
    requires cv.Valid() && |g.snake.positions| > 0
    ensures g.gameOver ==> r == g
    ensures r.snake == g.snake && r.food == g.food && r.score == g.score
    ensures r.autoMode == g.autoMode && r.gameStarted == g.gameStarted && r.frameCount == g.frameCount
    ensures |g.obstacles| <= |r.obstacles| <= |g.obstacles| + 20 && r.obstacles[..|g.obstacles|] == g.obstacles
    ensures !g.gameOver ==> r.obstacles == Obstacles.AddRandom(cv, g.obstacles, g.snake.positions, g.food, rand, g.draws).0
    ensures forall c :: c in r.obstacles && c !in g.obstacles ==> c !in g.snake.positions && c != g.food
    ensures !g.gameOver ==>
      (r.gameOver <==> forall p :: !AStar.IsWalk(AStar.Board(cv, g.snake.positions, r.obstacles), g.snake.positions[0], g.food, p))
    ensures Inv(cv, g) ==> Inv(cv, r)
  {
    if g.gameOver {
      return g;
    }
    var added := Obstacles.AddRandom(cv, g.obstacles, g.snake.positions, g.food, rand, g.draws);
    r := g.(obstacles := added.0, draws := added.1);
    forall c | c in r.obstacles && c !in g.obstacles
      ensures c !in g.snake.positions && c != g.food
    {
      var k :| 0 <= k < |r.obstacles| && r.obstacles[k] == c;
      assert Obstacles.Placeable(cv, r.obstacles[..k], g.snake.positions, g.food, r.obstacles[k]);
    }
    var path := AStar.FindPathToFood(AStar.Board(cv, g.snake.positions, r.obstacles), g.food);
    if path.None? {
      r := r.(gameOver := true);
    }
  }

  /** The autopilot button: flips the control mode and drops the cached path. */
  function ToggleAuto(g: Game): (r: Game)
    ensures r.autoMode != g.autoMode && r.snake.path == Some([])
    ensures r == g.(autoMode := r.autoMode, snake := g.snake.(path := Some([])))
  {
    g.(autoMode := !g.autoMode, snake := g.snake.(path := Some([])))
  }

  /** The mode-selection button: the game stops ticking until a mode is chosen. */
  function ModeSelect(g: Game): (r: Game)
    ensures !r.gameStarted && r == g.(gameStarted := false)
  {
    g.(gameStarted := false)
  }

  function ArrowDir(key: Key): Dir
    requires key.ArrowUp? || key.ArrowDown? || key.ArrowLeft? || key.ArrowRight?
  {
    match key
    case ArrowUp => Dir(0, -1)
    case ArrowDown => Dir(0, 1)
    case ArrowLeft => Dir(-1, 0)
    case ArrowRight => Dir(1, 0)
  }

  /**
    The key handler: arrows steer only in manual mode while the game runs
    (through the reversal guard), and space resets a finished game. The
    reset leaves the game stopped: it ticks again only after a mode is
    chosen.
   */
  method KeyDown(cv: Canvas, rand: Rand, g: Game, key: Key) returns (r: Game)
    requires cv.Valid() && Fair(rand, cv)
    requires key == Space && g.gameOver ==> ResetRoom(cv, g.obstacles)
    ensures (g.autoMode || g.gameOver || key == Space || key == OtherKey) && !(key == Space && g.gameOver) ==> r == g
    ensures !g.autoMode && !g.gameOver && key != Space && key != OtherKey ==>
      r == g.(snake := SetDirection(g.snake, ArrowDir(key)))
    ensures key == Space && g.gameOver ==> !r.gameOver && r.score == 0 && r.snake == Snakes.Reset(cv)
    ensures key == Space && g.gameOver ==>
      && !r.gameStarted && r.obstacles == g.obstacles && r.autoMode == g.autoMode && r.food !in r.obstacles
      && r.frameCount == g.frameCount
    ensures Inv(cv, g) ==> Inv(cv, r)
  {
    r := g;
    if !g.autoMode && !g.gameOver && key != Space && key != OtherKey {
      r := r.(snake := SetDirection(r.snake, ArrowDir(key)));
    }
    if key == Space && r.gameOver {
      r := Reset(cv, rand, r);
    }
  }

  /** The buttons keep the invariant. */
  lemma ButtonsKeepInv(cv: Canvas, g: Game)
    requires Inv(cv, g)
    ensures Inv(cv, ToggleAuto(g)) && Inv(cv, ModeSelect(g))
  {
  }
}

=== FILE: grid.dfy ===
/**
  Grid geometry shared by every part of the game.

  The game stores positions as canvas pixels that are always multiples of
  the block size. This model stores the cell instead: a cell `c` stands for
  the pixel position `(c.x * BlockSize, c.y * BlockSize)`. The scale appears
  only where the game compares against pixel quantities (the canvas size,
  the distance test of obstacle placement, the maze's clear area).
 */
module Grid {

  /** Side of one cell in pixels. */
  const BlockSize: int := 20

  /** A grid cell, in cell units. */
  datatype Cell = Cell(x: int, y: int)

  /** A movement vector, in cell units (one cell per unit). */
  datatype Dir = Dir(dx: int, dy: int)

  /** The drawing surface, in pixels. */
  datatype Canvas = Canvas(width: int, height: int) {

    /** At least one full cell fits in each direction. */
    predicate Valid() {
      width >= BlockSize && height >= BlockSize
    }

    /** Columns that meet the canvas (the last one may be partial). */
    function Cols(): int {
      (width + BlockSize - 1) / BlockSize
    }

    /** Rows that meet the canvas (the last one may be partial). */
    function Rows(): int {
      (height + BlockSize - 1) / BlockSize
    }
  }

  function PixelX(c: Cell): int { c.x * BlockSize }
  function PixelY(c: Cell): int { c.y * BlockSize }

  /** The wall test of the game: the pixel position lies inside the canvas. */
  predicate OnCanvas(cv: Canvas, c: Cell) {
    0 <= PixelX(c) < cv.width && 0 <= PixelY(c) < cv.height
  }

  function Move(c: Cell, d: Dir): Cell {
    Cell(c.x + d.dx, c.y + d.dy)
  }

  /** The vector leading from `a` to `b`. */
  function Delta(a: Cell, b: Cell): (d: Dir)
    ensures Move(a, d) == b
  {
    Dir(b.x - a.x, b.y - a.y)
  }

  function Negate(d: Dir): Dir {
    Dir(-d.dx, -d.dy)
  }

  function Abs(n: int): nat {
    if n < 0 then -n else n
  }

  /** The two cells differ by exactly one along exactly one axis. */
  predicate Adjacent(a: Cell, b: Cell) {
    (a.x == b.x && Abs(a.y - b.y) == 1) || (a.y == b.y && Abs(a.x - b.x) == 1)
  }

  /** Distance in king moves. */
  function Chebyshev(a: Cell, b: Cell): nat {
    if Abs(a.x - b.x) < Abs(a.y - b.y) then Abs(a.y - b.y) else Abs(a.x - b.x)
  }

  /** All cells with a pixel position inside the canvas. */
  function GridCells(cv: Canvas): set<Cell> {
    set x: int, y: int | 0 <= x < cv.Cols() && 0 <= y < cv.Rows() :: Cell(x, y)
  }

  /** Every on-canvas cell is one of the finitely many grid cells. */
  lemma OnCanvasIsGridCell(cv: Canvas, c: Cell)
    requires OnCanvas(cv, c)
    ensures c in GridCells(cv)
  {
    assert 0 <= c.x < cv.Cols();
    assert 0 <= c.y < cv.Rows();
  }

  predicate NoDuplicates<T(==)>(s: seq<T>) {
    forall i, j :: 0 <= i < j < |s| ==> s[i] != s[j]
  }
}

=== FILE: maze.dfy ===
/**
  The maze layout, `generateMaze` (game.js:236-305): recursive backtracking
  over a wall-filled grid with two-cell strides, then a plus-shaped area
  around the canvas centre is cleared.

  The carving grid has `width / 20` columns and `height / 20` rows, rounded
  down, so a partial last column or row of the canvas is never a wall.
 */
module Maze {
  import opened Grid
  import opened Oracle
  import Snakes

  /** Carving strides: up, right, down, left. */
  const Strides: seq<Dir> := [Dir(0, -2), Dir(2, 0), Dir(0, 2), Dir(-2, 0)]

  function MazeCols(cv: Canvas): int { cv.width / BlockSize }
  function MazeRows(cv: Canvas): int { cv.height / BlockSize }

  predicate InMaze(cols: int, rows: int, c: Cell) {
    0 <= c.x < cols && 0 <= c.y < rows
  }

  /** Strictly inside the border: where carving may move to. */
  predicate Interior(cols: int, rows: int, c: Cell) {
    0 < c.x < cols - 1 && 0 < c.y < rows - 1
  }

  predicate OnBorder(cols: int, rows: int, c: Cell) {
    InMaze(cols, rows, c) && !Interior(cols, rows, c)
  }

  /** The centre cell where carving starts. */
  function Start(cols: int, rows: int): Cell {
    Cell(cols / 2, rows / 2)
  }

  /** The only cells carving ever opens. */
  predicate Eligible(cols: int, rows: int, c: Cell) {
    Interior(cols, rows, c) || c == Start(cols, rows)
  }

  function MazeCells(cols: int, rows: int): set<Cell> {
    set x: int, y: int | 0 <= x < cols && 0 <= y < rows :: Cell(x, y)
  }

  /** The destructuring swap: slots `i` and `j` trade places, the rest stay. */
  function Swap<T>(s: seq<T>, i: nat, j: nat): (r: seq<T>)
    requires i < |s| && j < |s|
    ensures |r| == |s| && multiset(r) == multiset(s)
    ensures r[i] == s[j] && r[j] == s[i]
    ensures forall k :: 0 <= k < |s| && k != i && k != j ==> r[k] == s[k]
  {
    s[i := s[j]][j := s[i]]
  }

  /** The Fisher-Yates passes for indices `i` down to 1, one draw each. */
  function ShuffleFrom(s: seq<Dir>, i: nat, rand: Rand, p: nat): (r: (seq<Dir>, nat))
    requires i < |s|
    ensures |r.0| == |s| && multiset(r.0) == multiset(s)
    ensures r.1 == p + i
    decreases i
  {
    if i == 0 then (s, p)
    else
      var j := Scale(rand(p), (i + 1) as real);
      ShuffleFrom(Swap(s, i, j), i - 1, rand, p + 1)
  }

  /** The four strides in a random order, after three draws. */
  function Shuffle(rand: Rand, p: nat): (r: (seq<Dir>, nat))
    ensures |r.0| == 4 && forall i :: 0 <= i < 4 ==> r.0[i] in Strides
    ensures multiset(r.0) == multiset(Strides)
    ensures r.1 == p + 3
  {
    var r := ShuffleFrom(Strides, |Strides| - 1, rand, p);
    assert forall i :: 0 <= i < 4 ==> r.0[i] in multiset(r.0);
    r
  }

  /** The cell between `c` and `c` moved by a stride. */
  function Halfway(c: Cell, d: Dir): Cell {
    Cell(c.x + d.dx / 2, c.y + d.dy / 2)
  }

  /** A stride from an eligible cell to an interior cell crosses an interior cell. */
  lemma HalfwayInterior(cols: int, rows: int, c: Cell, d: Dir)
    requires d in Strides && Eligible(cols, rows, c) && Interior(cols, rows, Move(c, d))
    ensures Interior(cols, rows, Halfway(c, d))
  {
  }

  /**
    `carvePassage(x, y)`. It is only ever called on a wall cell: that is what
    makes it end, since each call opens one more of finitely many cells.
    Everything it opens is interior or the start cell, so the border stays
    wall. Each call reads three values for its shuffle.
   */
  function Carve(cols: int, rows: int, c: Cell, carved: set<Cell>, rand: Rand, p: nat): (r: (set<Cell>, nat))
    requires InMaze(cols, rows, c) && c !in carved
    requires Eligible(cols, rows, c) && forall d :: d in carved ==> Eligible(cols, rows, d)
    ensures carved + {c} <= r.0
    ensures forall d :: d in r.0 ==> Eligible(cols, rows, d)
    ensures r.1 >= p + 3
    decreases MazeCells(cols, rows) - (carved + {c}), 1, 0
  {
    var shuffled := Shuffle(rand, p);
    CarveDirs(cols, rows, c, shuffled.0, 0, carved + {c}, rand, shuffled.1)
  }

  /** The loop of `carvePassage` over the shuffled strides, from index `k`. */
  function CarveDirs(cols: int, rows: int, c: Cell, dirs: seq<Dir>, k: nat, carved: set<Cell>,
                     rand: Rand, p: nat): (r: (set<Cell>, nat))
    requires |dirs| == 4 && k <= 4 && forall i :: 0 <= i < 4 ==> dirs[i] in Strides
    requires c in carved && forall d :: d in carved ==> Eligible(cols, rows, d)
    ensures carved <= r.0
    ensures forall d :: d in r.0 ==> Eligible(cols, rows, d)
    ensures r.1 >= p
    decreases MazeCells(cols, rows) - carved, 0, 4 - k
  {
    if k == 4 then (carved, p)
    else
      var n := Move(c, dirs[k]);
      if 0 < n.x && n.x < cols - 1 && 0 < n.y && n.y < rows - 1 && n !in carved then
        var mid := Halfway(c, dirs[k]);
        HalfwayInterior(cols, rows, c, dirs[k]);
        assert n in MazeCells(cols, rows);
        var (o2, p2) := Carve(cols, rows, n, carved + {mid}, rand, p);
        CarveDirs(cols, rows, c, dirs, k + 1, o2, rand, p2)
      else
        CarveDirs(cols, rows, c, dirs, k + 1, carved, rand, p)
  }

  /** The cells carving opens on this canvas with this stream. */
  function Passages(cv: Canvas, rand: Rand, p: nat): (r: (set<Cell>, nat))
    requires cv.Valid()
    ensures Start(MazeCols(cv), MazeRows(cv)) in r.0
    ensures forall d :: d in r.0 ==> Eligible(MazeCols(cv), MazeRows(cv), d)
  {
    Carve(MazeCols(cv), MazeRows(cv), Start(MazeCols(cv), MazeRows(cv)), {}, rand, p)
  }

  /** Walls of row `y` from column `x` on, left to right. */
  function RowWalls(carved: set<Cell>, cols: int, y: int, x: int): (r: seq<Cell>)
    ensures forall c :: c in r <==> x <= c.x < cols && c.y == y && c !in carved
    ensures NoDuplicates(r)
    decreases cols - x
  {
    if x >= cols then []
    else
      var rest := RowWalls(carved, cols, y, x + 1);
      if Cell(x, y) !in carved then [Cell(x, y)] + rest else rest
  }

  /** Walls of rows `y` and below, row by row. */
  function WallList(carved: set<Cell>, cols: int, rows: int, y: int): (r: seq<Cell>)
    ensures forall c :: c in r <==> 0 <= c.x < cols && y <= c.y < rows && c !in carved
    ensures NoDuplicates(r)
    decreases rows - y
  {
    if y >= rows then []
    else
      var row := RowWalls(carved, cols, y, 0);
      var rest := WallList(carved, cols, rows, y + 1);
      var r := row + rest;
      assert NoDuplicates(r) by {
        forall i, j | 0 <= i < j < |r|
          ensures r[i] != r[j]
        {
          if i < |row| && j >= |row| {
            assert r[i] in row && r[j] in rest;
          } else if i < |row| {
            assert r[i] == row[i] && r[j] == row[j];
          } else {
            assert r[i] == rest[i - |row|] && r[j] == rest[j - |row|];
          }
        }
      }
      r
  }

  /**
    The clear area, in pixels: the canvas centre (rounded down) and the
    points one block away from it in each axis direction. It lines up
    with cells only when the centre is a multiple of the block size.
   */
  predicate InClearArea(cv: Canvas, c: Cell) {
    var cx := cv.width / 2;
    var cy := cv.height / 2;
    (PixelX(c), PixelY(c)) in [(cx, cy), (cx - BlockSize, cy), (cx + BlockSize, cy), (cx, cy - BlockSize), (cx, cy + BlockSize)]
  }

  /** The wall list without the clear area, in the same order. */
  function WithoutClearArea(cv: Canvas, s: seq<Cell>): (r: seq<Cell>)
    ensures forall c :: c in r <==> c in s && !InClearArea(cv, c)
    ensures NoDuplicates(s) ==> NoDuplicates(r)
    ensures |r| <= |s|
  {
    if |s| == 0 then []
    else
      var rest := WithoutClearArea(cv, s[1..]);
      assert forall c :: c in s[1..] ==> c in s;
      if InClearArea(cv, s[0]) then rest else [s[0]] + rest
  }

  /** Halving the column count lands on the snake's spawn column: `w / 40 == (w / 20) / 2`. */
  lemma {:induction false} HalfOfColumns(w: int)
    ensures w / (2 * BlockSize) == (w / BlockSize) / 2
  {
    var q, m := w / BlockSize, w % BlockSize;
    var a, b := q / 2, q % 2;
    assert w == 2 * BlockSize * a + (BlockSize * b + m);
    assert 0 <= BlockSize * b + m < 2 * BlockSize;
  }

  /** Carving starts on the snake's spawn cell. */
  lemma SpawnIsStart(cv: Canvas)
    ensures Snakes.Spawn(cv) == Start(MazeCols(cv), MazeRows(cv))
  {
    HalfOfColumns(cv.width);
    HalfOfColumns(cv.height);
  }

  /**
    `generateMaze`: the obstacles are exactly the uncarved cells of the
    carving grid outside the clear area, each once. The border stays wall
    apart from the start cell and the clear area, and the snake's spawn
    cell is never an obstacle.
   */
  function GenerateMaze(cv: Canvas, rand: Rand, p: nat): (r: (seq<Cell>, nat))
    requires cv.Valid()
    ensures forall c :: c in r.0 <==>
      InMaze(MazeCols(cv), MazeRows(cv), c) && c !in Passages(cv, rand, p).0 && !InClearArea(cv, c)
    ensures forall c :: OnBorder(MazeCols(cv), MazeRows(cv), c) && c != Start(MazeCols(cv), MazeRows(cv)) && !InClearArea(cv, c) ==> c in r.0
    ensures Snakes.Spawn(cv) !in r.0
    ensures NoDuplicates(r.0)
    ensures r.1 == Passages(cv, rand, p).1
  {
    var cols, rows := MazeCols(cv), MazeRows(cv);
    var (carved, p1) := Passages(cv, rand, p);
    var walls := WallList(carved, cols, rows, 0);
    SpawnIsStart(cv);
    assert Snakes.Spawn(cv) !in walls;
    (WithoutClearArea(cv, walls), p1)
  }
}

=== FILE: obstacles.dfy ===
/**
  Random obstacle placement (game.js:214-334 without the maze):
  `addSingleRandom`, `addRandom`, `generateRandom` and `initialize`.
 */
module Obstacles {
  import opened Grid
  import opened Oracle
  import Maze

  /** How many draws `addSingleRandom` makes at most. */
  const Attempts: nat := 10

  /** How many obstacles the random layout tries to place. */
  const RandomCount: nat := 60

  datatype Mode = MazeMode | RandomMode

  /**
    Where `addSingleRandom` may put an obstacle: on the canvas, more than one
    cell from the head in both axes' worst case, and not on an obstacle, a
    snake segment or the food.
   */
  predicate Placeable(cv: Canvas, obstacles: seq<Cell>, positions: seq<Cell>, food: Cell, c: Cell)
    requires |positions| > 0
  {
    && OnCanvas(cv, c)
    && Chebyshev(c, positions[0]) > 1
    && c !in obstacles && c !in positions && c != food
  }

  ghost predicate NonePlaceable(cv: Canvas, obstacles: seq<Cell>, positions: seq<Cell>, food: Cell, rand: Rand, p: nat, n: nat)
    requires |positions| > 0
  {
    forall j :: 0 <= j < n ==> !Placeable(cv, obstacles, positions, food, DrawAt(rand, cv, p, j))
  }

  /**
    The attempts of `addSingleRandom` from number `attempt` on. The result
    is the first placeable draw among the remaining attempts, appended, or
    nothing after the last attempt; each attempt reads two values.
   */
  function AddSingleFrom(cv: Canvas, obstacles: seq<Cell>, positions: seq<Cell>, food: Cell,
                         rand: Rand, p: nat, attempt: nat): (r: (seq<Cell>, nat))
    requires |positions| > 0 && cv.width > 0 && cv.height > 0 && attempt <= Attempts
    ensures r.0 == obstacles ==>
      r.1 == p + 2 * (Attempts - attempt) && NonePlaceable(cv, obstacles, positions, food, rand, p, Attempts - attempt)
    ensures r.0 != obstacles ==>
      exists i :: && 0 <= i < Attempts - attempt
                  && r.0 == obstacles + [DrawAt(rand, cv, p, i)]
                  && r.1 == p + 2 * (i + 1)
                  && Placeable(cv, obstacles, positions, food, DrawAt(rand, cv, p, i))
                  && NonePlaceable(cv, obstacles, positions, food, rand, p, i)
    decreases Attempts - attempt
  {
    if attempt == Attempts then (obstacles, p)
    else
      var pos := DrawCell(rand, cv, p);
      var head := positions[0];
      assert pos == DrawAt(rand, cv, p, 0);
      if Abs(PixelX(pos) - PixelX(head)) <= BlockSize && Abs(PixelY(pos) - PixelY(head)) <= BlockSize then
        var r := AddSingleFrom(cv, obstacles, positions, food, rand, p + 2, attempt + 1);
        ShiftDraws(cv, obstacles, positions, food, rand, p, p + 2, r.0, r.1, attempt);
        r
      else if pos !in obstacles && pos !in positions && pos != food then
        (obstacles + [pos], p + 2)
      else
        var r := AddSingleFrom(cv, obstacles, positions, food, rand, p + 2, attempt + 1);
        ShiftDraws(cv, obstacles, positions, food, rand, p, p + 2, r.0, r.1, attempt);
        r
  }

  /** Re-indexes the outcome of the later attempts against the draw before them. */
  lemma ShiftDraws(cv: Canvas, obstacles: seq<Cell>, positions: seq<Cell>, food: Cell,
                   rand: Rand, p: nat, p2: nat, o: seq<Cell>, q: nat, attempt: nat)
    requires |positions| > 0 && attempt < Attempts && p2 == p + 2
    requires !Placeable(cv, obstacles, positions, food, DrawAt(rand, cv, p, 0))
    requires o == obstacles ==>
      q == p2 + 2 * (Attempts - attempt - 1) && NonePlaceable(cv, obstacles, positions, food, rand, p2, Attempts - attempt - 1)
    requires o != obstacles ==>
      exists i :: && 0 <= i < Attempts - attempt - 1
                  && o == obstacles + [DrawAt(rand, cv, p2, i)]
                  && q == p2 + 2 * (i + 1)
                  && Placeable(cv, obstacles, positions, food, DrawAt(rand, cv, p2, i))
                  && NonePlaceable(cv, obstacles, positions, food, rand, p2, i)
    ensures o == obstacles ==>
      q == p + 2 * (Attempts - attempt) && NonePlaceable(cv, obstacles, positions, food, rand, p, Attempts - attempt)
    ensures o != obstacles ==>
      exists i :: && 0 <= i < Attempts - attempt
                  && o == obstacles + [DrawAt(rand, cv, p, i)]
                  && q == p + 2 * (i + 1)
                  && Placeable(cv, obstacles, positions, food, DrawAt(rand, cv, p, i))
                  && NonePlaceable(cv, obstacles, positions, food, rand, p, i)
  {
    if o == obstacles {
      forall j | 0 <= j < Attempts - attempt
        ensures !Placeable(cv, obstacles, positions, food, DrawAt(rand, cv, p, j))
      {
        if j > 0 {
          assert DrawAt(rand, cv, p, j) == DrawAt(rand, cv, p2, j - 1);
        }
      }
    } else {
      var i :| && 0 <= i < Attempts - attempt - 1
               && o == obstacles + [DrawAt(rand, cv, p2, i)]
               && q == p2 + 2 * (i + 1)
               && Placeable(cv, obstacles, positions, food, DrawAt(rand, cv, p2, i))
               && NonePlaceable(cv, obstacles, positions, food, rand, p2, i);
      forall j | 0 <= j < i + 1
        ensures !Placeable(cv, obstacles, positions, food, DrawAt(rand, cv, p, j))
      {
        if j > 0 {
          assert DrawAt(rand, cv, p, j) == DrawAt(rand, cv, p2, j - 1);
        }
      }
      assert DrawAt(rand, cv, p, i + 1) == DrawAt(rand, cv, p2, i);
    }
  }

  /**
    `addSingleRandom`: up to ten draws; the first placeable one is appended.
    Existing obstacles are never moved or removed.
   */
  function AddSingleRandom(cv: Canvas, obstacles: seq<Cell>, positions: seq<Cell>, food: Cell,
                           rand: Rand, p: nat): (r: (seq<Cell>, nat))
    requires |positions| > 0 && cv.width > 0 && cv.height > 0
    ensures |r.0| == |obstacles| || |r.0| == |obstacles| + 1
    ensures r.0[..|obstacles|] == obstacles
    ensures |r.0| == |obstacles| + 1 ==> Placeable(cv, obstacles, positions, food, r.0[|obstacles|])
    ensures |r.0| == |obstacles| ==> NonePlaceable(cv, obstacles, positions, food, rand, p, Attempts)
    ensures p + 2 <= r.1 <= p + 2 * Attempts
  {
    AddSingleFrom(cv, obstacles, positions, food, rand, p, 0)
  }

  /** Every obstacle from index `lo` on was placeable when it was added. */
  ghost predicate PlacedAfter(cv: Canvas, obstacles: seq<Cell>, positions: seq<Cell>, food: Cell, lo: int)
    requires |positions| > 0
  {
    forall k :: 0 <= lo <= k < |obstacles| ==> Placeable(cv, obstacles[..k], positions, food, obstacles[k])
  }

  /**
    `n` calls of `addSingleRandom` in a row. Fewer than `n` obstacles are
    added only when some call, from some later point of the stream, found
    none of its ten draws placeable against the obstacles at that time.
   */
  function AddMany(cv: Canvas, obstacles: seq<Cell>, positions: seq<Cell>, food: Cell,
                   rand: Rand, p: nat, n: nat): (r: (seq<Cell>, nat))
    requires |positions| > 0 && cv.width > 0 && cv.height > 0
    ensures |obstacles| <= |r.0| <= |obstacles| + n
    ensures r.0[..|obstacles|] == obstacles
    ensures PlacedAfter(cv, r.0, positions, food, |obstacles|)
    ensures |r.0| < |obstacles| + n ==>
      exists m: int, q: nat :: |obstacles| <= m <= |r.0| && p <= q && NonePlaceable(cv, r.0[..m], positions, food, rand, q, Attempts)
    ensures r.1 >= p + 2 * n
    decreases n
  {
    if n == 0 then (obstacles, p)
    else
      var one := AddSingleRandom(cv, obstacles, positions, food, rand, p);
      var r := AddMany(cv, one.0, positions, food, rand, one.1, n - 1);
      assert r.0[..|obstacles|] == obstacles by {
        assert r.0[..|obstacles|] == r.0[..|one.0|][..|obstacles|];
      }
      assert PlacedAfter(cv, r.0, positions, food, |obstacles|) by {
        forall k | |obstacles| <= k < |r.0|
          ensures Placeable(cv, r.0[..k], positions, food, r.0[k])
        {
          if k < |one.0| {
            assert k == |obstacles|;
            assert r.0[..k] == obstacles;
            assert r.0[k] == one.0[k];
          }
        }
      }
      assert |r.0| < |obstacles| + n ==>
        exists m: int, q: nat :: |obstacles| <= m <= |r.0| && p <= q && NonePlaceable(cv, r.0[..m], positions, food, rand, q, Attempts) by {
        if |r.0| < |obstacles| + n {
          if |one.0| == |obstacles| {
            assert r.0[..|obstacles|] == obstacles;
            assert NonePlaceable(cv, r.0[..|obstacles|], positions, food, rand, p, Attempts);
          } else {
            var m: int, q: nat :| |one.0| <= m <= |r.0| && one.1 <= q && NonePlaceable(cv, r.0[..m], positions, food, rand, q, Attempts);
          }
        }
      }
      r
  }

  /** Obstacles that were each placeable when added never repeat. */
  lemma PlacedAreDistinct(cv: Canvas, obstacles: seq<Cell>, positions: seq<Cell>, food: Cell, lo: nat)
    requires |positions| > 0 && lo <= |obstacles|
    requires PlacedAfter(cv, obstacles, positions, food, lo)
    ensures NoDuplicates(obstacles[..lo]) ==> NoDuplicates(obstacles)
  {
    if !NoDuplicates(obstacles[..lo]) {
      return;
    }
    forall i, j | 0 <= i < j < |obstacles|
      ensures obstacles[i] != obstacles[j]
    {
      if j >= lo {
        assert Placeable(cv, obstacles[..j], positions, food, obstacles[j]);
        assert obstacles[i] == obstacles[..j][i];
      } else {
        assert obstacles[..lo][i] == obstacles[i] && obstacles[..lo][j] == obstacles[j];
      }
    }
  }

  /** `Math.floor(Math.random() * 11) + 10`: how many obstacles `addRandom` tries. */
  function AddCount(r: Unit): (n: int)
    ensures 10 <= n <= 20
  {
    Scale(r, 11.0) + 10
  }

  /**
    `addRandom`: one draw for the count, then that many calls of
    `addSingleRandom`. Old obstacles stay; each new one was placeable when
    added, so none repeats and none touches the snake or the food.
   */
  function AddRandom(cv: Canvas, obstacles: seq<Cell>, positions: seq<Cell>, food: Cell,
                     rand: Rand, p: nat): (r: (seq<Cell>, nat))
    requires |positions| > 0 && cv.width > 0 && cv.height > 0
    ensures |obstacles| <= |r.0| <= |obstacles| + 20
    ensures r.0[..|obstacles|] == obstacles
    ensures PlacedAfter(cv, r.0, positions, food, |obstacles|)
    ensures NoDuplicates(obstacles) ==> NoDuplicates(r.0)
    ensures |r.0| < |obstacles| + AddCount(rand(p)) ==>
      exists m: int, q: nat :: |obstacles| <= m <= |r.0| && p < q && NonePlaceable(cv, r.0[..m], positions, food, rand, q, Attempts)
    ensures r.1 > p
  {
    var r := AddMany(cv, obstacles, positions, food, rand, p + 1, AddCount(rand(p)));
    PlacedAreDistinct(cv, r.0, positions, food, |obstacles|);
    r
  }

  /**
    `generateRandom`: sixty calls of `addSingleRandom` on an empty layout.
    The result has at most sixty distinct cells, none on the snake, the
    food or the head's neighbourhood.
   */
  function GenerateRandom(cv: Canvas, positions: seq<Cell>, food: Cell, rand: Rand, p: nat): (r: (seq<Cell>, nat))
    requires |positions| > 0 && cv.width > 0 && cv.height > 0
    ensures |r.0| <= RandomCount
    ensures NoDuplicates(r.0)
    ensures forall c :: c in r.0 ==> OnCanvas(cv, c) && Chebyshev(c, positions[0]) > 1 && c !in positions && c != food
    ensures |r.0| < RandomCount ==>
      exists m: int, q: nat :: 0 <= m <= |r.0| && p <= q && NonePlaceable(cv, r.0[..m], positions, food, rand, q, Attempts)
    ensures r.1 >= p
  {
    var r := AddMany(cv, [], positions, food, rand, p, RandomCount);
    PlacedAreDistinct(cv, r.0, positions, food, 0);
    assert forall k :: 0 <= k < |r.0| ==> Placeable(cv, r.0[..k], positions, food, r.0[k]);
    r
  }

  /** `initialize`: a fresh layout for the mode, replacing the old one. */
  function Initialize(mode: Mode, cv: Canvas, positions: seq<Cell>, food: Cell, rand: Rand, p: nat): (r: (seq<Cell>, nat))
    requires |positions| > 0 && cv.Valid()
    ensures NoDuplicates(r.0)
    ensures mode == RandomMode ==> forall c :: c in r.0 ==> c !in positions && c != food
    ensures mode == MazeMode ==> r == Maze.GenerateMaze(cv, rand, p)
    ensures r.1 >= p
  {
    if mode == MazeMode then Maze.GenerateMaze(cv, rand, p)
    else GenerateRandom(cv, positions, food, rand, p)
  }
}

=== FILE: optional.dfy ===
/** A value or its absence (the game's `null`). */
module Optional {
  datatype Option<+T> = None | Some(value: T)
}

=== FILE: oracle.dfy ===
/**
  The game's only source of nondeterminism is `Math.random`. It is modelled
  as an infinite stream of reals in [0, 1) together with the index of the
  next unread value; every operation that draws returns the advanced index.
  Floating-point rounding is not modelled: products and floors are exact.
 */
module Oracle {
  import opened Grid

  /** One value of `Math.random`. */
  type Unit = r: real | 0.0 <= r < 1.0

  /** The sequence of values `Math.random` returns, in call order. */
  type Rand = nat -> Unit

  /** `Math.floor(r * n)`: a uniform index below `n`. */
  function Scale(r: Unit, n: real): (k: int)
    ensures n > 0.0 ==> 0 <= k && (k as real) < n
  {
    var q := r * n;
    assert n > 0.0 ==> q < n by {
      if n > 0.0 {
        assert n - q == (1.0 - r) * n;
      }
    }
    q.Floor
  }

  /** `Math.floor(Math.random() * (extent / blockSize))` for one axis. */
  function ScaleAxis(r: Unit, extent: int): (k: int)
    ensures extent > 0 ==> 0 <= k && 0 <= k * BlockSize < extent
  {
    var k := Scale(r, extent as real / BlockSize as real);
    assert extent > 0 ==> (k as real) * (BlockSize as real) < extent as real;
    k
  }

  /** A random cell: the x draw at index `p`, the y draw at `p + 1`. */
  function DrawCell(rand: Rand, cv: Canvas, p: nat): (c: Cell)
    ensures cv.width > 0 && cv.height > 0 ==> OnCanvas(cv, c)
  {
    Cell(ScaleAxis(rand(p), cv.width), ScaleAxis(rand(p + 1), cv.height))
  }

  /** The cell of the `i`-th retry of a sampling loop started at `p`. */
  function DrawAt(rand: Rand, cv: Canvas, p: nat, i: nat): Cell {
    DrawCell(rand, cv, p + 2 * i)
  }

  /** Some later retry of a sampling loop started at `p` draws `c`. */
  ghost predicate Hits(rand: Rand, cv: Canvas, c: Cell, p: nat) {
    exists i: nat :: DrawAt(rand, cv, p, i) == c
  }

  /** The stream keeps drawing every on-canvas cell, whatever has been read. */
  ghost predicate Fair(rand: Rand, cv: Canvas) {
    forall c: Cell, p: nat :: OnCanvas(cv, c) ==> Hits(rand, cv, c, p)
  }
}

=== FILE: snake.dfy ===
/**
  The snake: its body, its target length, its heading and the path the
  autopilot has cached for it (game.js:20-82).
 */
module Snakes {
  import opened Grid
  import opened Optional

  /**
    `positions` is head-first. `length` is the target size: the body grows
    toward it one cell per step. `path` is `None` after a failed search
    (the game's `null`).
   */
  datatype Snake = Snake(positions: seq<Cell>, length: int, direction: Dir, path: Option<seq<Cell>>)

  /** The centre cell where every snake starts. */
  function Spawn(cv: Canvas): Cell {
    Cell(cv.width / (2 * BlockSize), cv.height / (2 * BlockSize))
  }

  /** The shape every live snake keeps: a head on the canvas, at most `length` cells. */
  predicate Inv(cv: Canvas, s: Snake) {
    && 1 <= |s.positions| <= s.length
    && OnCanvas(cv, s.positions[0])
  }

  /** A one-cell snake at the centre heading right with an empty cached path. */
  function Reset(cv: Canvas): (s: Snake)
    ensures cv.width > 0 && cv.height > 0 ==> Inv(cv, s)
    ensures s.positions == [Spawn(cv)] && s.length == 1 && s.path == Some([])
    ensures s.direction == Dir(1, 0)
  {
    Snake([Spawn(cv)], 1, Dir(1, 0), Some([]))
  }

  /**
    Turns toward `d` unless `d` is the exact reverse of the current heading.
    Nothing but the heading changes.
   */
  function SetDirection(s: Snake, d: Dir): (r: Snake)
    ensures r.positions == s.positions && r.length == s.length && r.path == s.path
    ensures r.direction == d || r.direction == s.direction
    ensures r.direction == s.direction <==> (d == s.direction || d == Negate(s.direction))
  {
    if s.direction.dx != -d.dx || s.direction.dy != -d.dy then s.(direction := d) else s
  }

  /** A requested turn never makes the snake reverse onto itself. */
  lemma NoInstantReversal(s: Snake, d: Dir)
    requires s.direction != Dir(0, 0)
    ensures SetDirection(s, d).direction != Negate(s.direction)
  {
  }

  /** The body cell at index `i >= 1` (the tail included, the head excluded) is `p`. */
  predicate OnBody(positions: seq<Cell>, p: Cell) {
    exists i :: 1 <= i < |positions| && positions[i] == p
  }

  /**
    The collision rule: off the canvas, on the body behind the head, or on
    an obstacle.
   */
  predicate Blocked(cv: Canvas, positions: seq<Cell>, obstacles: seq<Cell>, p: Cell) {
    !OnCanvas(cv, p) || OnBody(positions, p) || p in obstacles
  }

  /** The game's `checkCollision`: the wall test, the body scan, the obstacle scan. */
  method CheckCollision(cv: Canvas, positions: seq<Cell>, obstacles: seq<Cell>, p: Cell)
    returns (hit: bool)
    ensures hit == Blocked(cv, positions, obstacles, p)
  {
    if PixelX(p) < 0 || PixelX(p) >= cv.width || PixelY(p) < 0 || PixelY(p) >= cv.height {
      return true;
    }
    var i := 1;
    while i < |positions|
      invariant 1 <= i
      invariant forall k :: 1 <= k < i && k < |positions| ==> positions[k] != p
    {
      if positions[i] == p {
        return true;
      }
      i := i + 1;
    }
    var j := 0;
    while j < |obstacles|
      invariant 0 <= j <= |obstacles|
      invariant p !in obstacles[..j]
    {
      if obstacles[j] == p {
        return true;
      }
      assert obstacles[..j + 1] == obstacles[..j] + [obstacles[j]];
      j := j + 1;
    }
    assert obstacles[..j] == obstacles;
    return false;
  }

  /** The cell the head would enter next. */
  function NextHead(s: Snake): Cell
    requires |s.positions| > 0
  {
    Move(s.positions[0], s.direction)
  }

  /**
    One step. On a collision the snake is unchanged and the step reports
    failure; otherwise the new head is put in front and the tail cell is
    dropped when the body would exceed `length`.
   */
  function Update(cv: Canvas, s: Snake, obstacles: seq<Cell>): (r: (Snake, bool))
    requires |s.positions| > 0
    ensures !r.1 <==> Blocked(cv, s.positions, obstacles, NextHead(s))
    ensures !r.1 ==> r.0 == s
    ensures r.1 ==> r.0 == s.(positions := r.0.positions)
    ensures r.1 ==> |r.0.positions| > 0 && r.0.positions[0] == NextHead(s)
    ensures r.1 ==> r.0.positions[1..] <= s.positions
    ensures r.1 ==> |r.0.positions| == if |s.positions| < s.length then |s.positions| + 1 else |s.positions|
  {
    var head := NextHead(s);
    if Blocked(cv, s.positions, obstacles, head) then
      (s, false)
    else
      var grown := [head] + s.positions;
      if |grown| > s.length then
        (s.(positions := grown[..|grown| - 1]), true)
      else
        (s.(positions := grown), true)
  }

  /** A successful step keeps the head on the canvas and the body within `length`. */
  lemma UpdateKeepsInv(cv: Canvas, s: Snake, obstacles: seq<Cell>)
    requires Inv(cv, s)
    ensures Inv(cv, Update(cv, s, obstacles).0)
  {
  }

  /**
    A step never makes two segments share a cell, as long as the heading is
    not the zero vector.
   */
  lemma UpdateKeepsDistinct(cv: Canvas, s: Snake, obstacles: seq<Cell>)
    requires |s.positions| > 0 && NoDuplicates(s.positions)
    requires s.direction != Dir(0, 0)
    ensures NoDuplicates(Update(cv, s, obstacles).0.positions)
  {
    var r := Update(cv, s, obstacles);
    if r.1 {
      var ps := r.0.positions;
      var head := NextHead(s);
      forall i, j | 0 <= i < j < |ps|
        ensures ps[i] != ps[j]
      {
        assert ps[j] == s.positions[j - 1];
        if i == 0 {
          if j == 1 {
            assert head != s.positions[0];
          } else {
            assert !OnBody(s.positions, head);
          }
        } else {
          assert ps[i] == s.positions[i - 1];
        }
      }
    }
  }
}
